=== FILE: README.md ===
# Dropbox Notes synchronisation, modelled in Dafny

This project models the synchronisation engine of the Dropbox Notes Android
application. A sync reconciles the local notes table with the files in the
root folder of the linked Dropbox account. The engine is `SyncWithDropbox`:

- it lists the root folder once and builds an index from file name to entry;
- it walks every local note row and decides per row what to do:
  - a row marked deleted is deleted remotely and then locally;
  - the newer side wins: a download, an upload, or nothing when the
    times are equal;
  - a file named by the row but missing from the listing only draws a
    warning;
  - a note that was never uploaded goes to the first free `Note<k>.txt`,
    counting up from the note's id;
- it handles per-row errors: a 404 re-uploads the note under a fresh name
  or drops the deleted row, and any other error ends the run with a message;
- it publishes a percentage after every row that counts;
- it can be cancelled; the cancellation is seen at the top of the next row;
- after a clean walk, it downloads every live listed file that no local row
  names, into a new local row.

A note's remote content is its title, a line break, and its body. Java
string concatenation turns a null column into the text `null`. The first line
read back is the title and the rest is the body.

Modules:

| file | module | what |
|---|---|---|
| `wrappers.dfy` | `Wrappers` | `Option` |
| `content.dfy` | `NoteContent` | encoding a note as file content; reading it back (`readLine`, then 1024-character chunks) |
| `names.dfy` | `NoteNames` | `Note<id>.txt` names and the do-while search for a free one |
| `dropbox.dfy` | `Dropbox` | listing entries, the name index, failures and the messages they produce |
| `stores.dfy` | `Storage` | the local table, the remote folder and the helper operations, as functions over both stores |
| `reconcile.dfy` | `Reconcile` | the per-row decision and the per-row error handling, with the reconciliation properties |
| `run.dfy` | `SyncRun` | the whole `doInBackground` as a function: the loop, progress, cancellation and the download of extra notes |
| `sync.dfy` | `SyncTask` | the class `SyncWithDropbox`, whose fields are updated in place by methods that mirror the Java methods; each method is proved equal to its function in `Storage`, `Reconcile` or `SyncRun` |

Two stores make up the world:

- the local table, a map from row id to `Note`;
- the remote folder, a map from path to `RemoteFile`.

The world also holds the log of remote calls issued so far. The Dropbox SDK
is an oracle indexed by the number of calls made so far; for each call it
gives a fault or a success, the server's time stamp, and whether the
download stream can be read to the end. A delete or a download of a path
that is not in the folder is answered with a 404.

## Model

| member | source | states |
|---|---|---|
| NoteContent.LineEnd | trunk/src/daniel/stanciu/dropboxnotes/SyncWithDropbox.java:428 | the position of the first `\n` or `\r` from a start position, or the end of the content when there is none |
| NoteContent.ReadLine | trunk/src/daniel/stanciu/dropboxnotes/SyncWithDropbox.java:428 | `readLine` yields nothing exactly on empty content; otherwise exactly the characters before the first `\n` or `\r`, which hold no line break |
| NoteContent.AfterLine | trunk/src/daniel/stanciu/dropboxnotes/SyncWithDropbox.java:428-429 | the reader stands just past the first terminator, with `\r\n` counting as one, or at the end of the content when there is none |
| NoteContent.ReadRemaining | trunk/src/daniel/stanciu/dropboxnotes/SyncWithDropbox.java:424-431 | the 1024-character chunk loop appends exactly the rest of the stream after the title line |
| NoteContent.ReadNote | trunk/src/daniel/stanciu/dropboxnotes/SyncWithDropbox.java:420-431 | reading a file gives the title line and the rest as the body, i.e. `Decode` |
| NoteContent.DecodeEncode | trunk/src/daniel/stanciu/dropboxnotes/SyncWithDropbox.java:428-431 | round trip: reading back an uploaded note gives its title and body, with null columns as the text `null`, whenever the title has no line break |
| NoteContent.EncodeDecode | trunk/src/daniel/stanciu/dropboxnotes/SyncWithDropbox.java:470 | round trip the other way: content whose first terminator is `\n` is uploaded back unchanged after it is read into a row |
| NoteContent.MultiLineTitleSplits | trunk/src/daniel/stanciu/dropboxnotes/SyncWithDropbox.java:470 | a title with a line break does not survive: its second line moves into the body |
| NoteNames.DigitChar | trunk/src/daniel/stanciu/dropboxnotes/SyncWithDropbox.java:449 | a digit character and its value |
| NoteNames.Digits | trunk/src/daniel/stanciu/dropboxnotes/SyncWithDropbox.java:449 | decimal text is non-empty and all digits, with one digit exactly below ten |
| NoteNames.DigitsDenote | trunk/src/daniel/stanciu/dropboxnotes/SyncWithDropbox.java:449 | the decimal text denotes the number, and only zero is written with a leading `0` |
| NoteNames.DigitsInjective | trunk/src/daniel/stanciu/dropboxnotes/SyncWithDropbox.java:449 | distinct numbers have distinct digit strings |
| NoteNames.DecimalTextInjective | trunk/src/daniel/stanciu/dropboxnotes/SyncWithDropbox.java:449 | distinct longs, negative ones included, print differently |
| NoteNames.NoteFileNameInjective | trunk/src/daniel/stanciu/dropboxnotes/SyncWithDropbox.java:448-450 | distinct note ids give distinct `Note<id>.txt` names |
| NoteNames.NamesFromSize | trunk/src/daniel/stanciu/dropboxnotes/SyncWithDropbox.java:462-465 | helper (proof step): the names of the ids in a range are as many as the ids |
| NoteNames.SubsetSize | trunk/src/daniel/stanciu/dropboxnotes/SyncWithDropbox.java:462-465 | helper (proof step): a subset is no larger than its superset |
| NoteNames.TakenIndicesBound | trunk/src/daniel/stanciu/dropboxnotes/SyncWithDropbox.java:462-465 | pigeonhole: at most as many consecutive ids can be taken as there are listed names, so the search ends |
| NoteNames.FreeIndexFrom | trunk/src/daniel/stanciu/dropboxnotes/SyncWithDropbox.java:461-465 | the id found is at least the start, its name is not listed, and every name from the start up to it is listed |
| NoteNames.FreeIndexUnique | trunk/src/daniel/stanciu/dropboxnotes/SyncWithDropbox.java:461-465 | only one id has that property, so the search's result is determined |
| NoteNames.FindFreeName | trunk/src/daniel/stanciu/dropboxnotes/SyncWithDropbox.java:456-467 | the do-while loop returns the name of that first free id, which is not in the listing |
| NoteNames.CollisionExample | trunk/src/daniel/stanciu/dropboxnotes/SyncWithDropbox.java:461-465 | with `Note5.txt` to `Note9.txt` taken, note 5 gets `Note10.txt` |
| Dropbox.IndexSound | trunk/src/daniel/stanciu/dropboxnotes/SyncWithDropbox.java:92-98 | every indexed entry is live, sits under its own name, and comes from the listing |
| Dropbox.IndexComplete | trunk/src/daniel/stanciu/dropboxnotes/SyncWithDropbox.java:92-98 | every live listed name is indexed; a repeated name maps to the last live entry |
| Dropbox.BuildIndex | trunk/src/daniel/stanciu/dropboxnotes/SyncWithDropbox.java:88-98 | the loop over `dir.contents` builds exactly that index |
| Dropbox.CoarseMessage | trunk/src/daniel/stanciu/dropboxnotes/SyncWithDropbox.java:99-118 | the listing, 404-recovery and download handlers produce one of four fixed messages; a server error gives the unknown-error message |
| Dropbox.RowMessage | trunk/src/daniel/stanciu/dropboxnotes/SyncWithDropbox.java:196-260 | the row handler reports the server's user error, else its error text, and the fixed messages for the other failures |
| Storage.DeleteDropboxNote | trunk/src/daniel/stanciu/dropboxnotes/SyncWithDropbox.java:403-406 | one delete of `"/" + fileName`; the file is gone on success, a path that is not there answers 404, nothing changes on failure, and the table is untouched |
| Storage.UpdateLocalNote | trunk/src/daniel/stanciu/dropboxnotes/SyncWithDropbox.java:420-446 | one download of the file; it fails exactly on an SDK fault or a missing file, which answers 404; a readable download writes the file's title, body, the given time and the name into the row; a fault, a broken stream or a missing row leave the table as it was |
| Storage.InsertDropboxNote | trunk/src/daniel/stanciu/dropboxnotes/SyncWithDropbox.java:469-474 | one upload of title + `\n` + body over the path; on success the file holds it with the server time and the row takes that time and the name; on failure neither store changes |
| Storage.CreateLocalNote | trunk/src/daniel/stanciu/dropboxnotes/SyncWithDropbox.java:408-413 | a new row id is used up, one download is issued, the remote folder is untouched |
| Storage.CreateLocalNoteRow | trunk/src/daniel/stanciu/dropboxnotes/SyncWithDropbox.java:408-437 | exactly one row is added and no other row changes; it holds the downloaded note with the file's time and name, or stays blank when the download failed |
| Reconcile.DecideClassifies | trunk/src/daniel/stanciu/dropboxnotes/SyncWithDropbox.java:143-186 | the row's action: deleted rows are removed (remotely too when named); unnamed rows are uploaded new; named rows absent from the listing are missing; otherwise the newer time wins and equal times do nothing |
| Reconcile.DeletedRow | trunk/src/daniel/stanciu/dropboxnotes/SyncWithDropbox.java:160-166 | a deleted row gets exactly its owed remote delete and no upload or download; the row goes unless that delete failed other than with 404; it counts towards progress exactly when its delete answered 404; a row without a name or whose delete succeeds continues without counting, and any other failure ends the loop with the row message |
| Reconcile.RemoteNewerPulls | trunk/src/daniel/stanciu/dropboxnotes/SyncWithDropbox.java:167-172 | a newer remote file is downloaded into the row: title, body, time and name |
| Reconcile.LocalNewerPushes | trunk/src/daniel/stanciu/dropboxnotes/SyncWithDropbox.java:173-174 | a newer local note is uploaded over the file, and the row takes the server time |
| Reconcile.EqualTimesSkip | trunk/src/daniel/stanciu/dropboxnotes/SyncWithDropbox.java:175-178 | equal times change nothing and skip the progress update |
| Reconcile.MissingFileWarns | trunk/src/daniel/stanciu/dropboxnotes/SyncWithDropbox.java:179-183 | a named file absent from the listing changes nothing and still counts towards progress |
| Reconcile.NewNoteUploaded | trunk/src/daniel/stanciu/dropboxnotes/SyncWithDropbox.java:184-186 | a never-uploaded note goes to a free name, which is not in the listing and has every name before it taken; the row records that name and the server time |
| Reconcile.NewNotesMayShareName | trunk/src/daniel/stanciu/dropboxnotes/SyncWithDropbox.java:185 | the index is not updated after an upload, so notes 5 and 6 can both be uploaded to `Note6.txt` in one run and the second upload overwrites the first |
| Reconcile.RowKeepsIds | trunk/src/daniel/stanciu/dropboxnotes/SyncWithDropbox.java:156-261 | a row never adds a local row nor uses up an id; the table only loses or updates rows |
| Reconcile.FailureAborts | trunk/src/daniel/stanciu/dropboxnotes/SyncWithDropbox.java:196-260 | a first remote call failing other than with 404 ends the loop with the row message, and neither store changes |
| Reconcile.Attempt | trunk/src/daniel/stanciu/dropboxnotes/SyncWithDropbox.java:160-186 | the first remote call of a row's action (delete, download, upload, or first upload) adds one call to the log, never adds a row, and on failure leaves both stores as they were |
| Reconcile.NotFoundRecreates | trunk/src/daniel/stanciu/dropboxnotes/SyncWithDropbox.java:202-234 | a 404 on the first call of a live row, whether from the server or because the file has gone from the folder, re-uploads the note under the first free name, not in the listing; on success the file holds the note with the server time and the row takes that time and name; a failure of that upload ends the loop with the coarse message and changes neither store |
| Reconcile.NoteFileNameNotBlank | trunk/src/daniel/stanciu/dropboxnotes/SyncWithDropbox.java:448-450 | a generated name is never blank, so it is never treated as no name |
| Reconcile.SyncedRowIsPristine | trunk/src/daniel/stanciu/dropboxnotes/SyncWithDropbox.java:171-177 | after a successful download, upload or first upload, the row meets an equal remote time in a fresh listing and is skipped next time |
| SyncRun.ProductAtLeast | trunk/src/daniel/stanciu/dropboxnotes/SyncWithDropbox.java:263 | helper (proof step): arithmetic step for the percentage bound |
| SyncRun.DivideExactly | trunk/src/daniel/stanciu/dropboxnotes/SyncWithDropbox.java:263 | helper (proof step): arithmetic step: integer division recovers the quotient |
| SyncRun.QuotientBelow | trunk/src/daniel/stanciu/dropboxnotes/SyncWithDropbox.java:263 | helper (proof step): arithmetic step: the quotient stays below the bound |
| SyncRun.Percent | trunk/src/daniel/stanciu/dropboxnotes/SyncWithDropbox.java:262-263 | the published percentage is within 0..100 and is 100 once every row has counted |
| SyncRun.Sync | trunk/src/daniel/stanciu/dropboxnotes/SyncWithDropbox.java:81-401 | a failed listing or a missing cursor ends the run with its message and changes nothing; after a clean walk the result is exactly the download loop over the listing, which leaves the walk's bookkeeping alone; a failed walk is the result itself; a successful run has no message |
| SyncRun.PullDownPreserves | trunk/src/daniel/stanciu/dropboxnotes/SyncWithDropbox.java:367-398 | the download loop keeps the remembered names and the progress count |
| SyncRun.LoopStops | trunk/src/daniel/stanciu/dropboxnotes/SyncWithDropbox.java:135-139 | helper (proof step): the cursor loop ends at the last row or once the status is false |
| SyncRun.LoopUnfolds | trunk/src/daniel/stanciu/dropboxnotes/SyncWithDropbox.java:135-263 | helper (proof step): otherwise it runs one iteration on the current row and continues with the next one |
| SyncRun.RowStepKeepsBooks | trunk/src/daniel/stanciu/dropboxnotes/SyncWithDropbox.java:136-263 | one iteration moves progress by at most one row and publishes one percentage for a counted row, and adds no local row; an iteration that keeps the status keeps the message and has remembered the row's name |
| SyncRun.LoopWithKeepsMessage | trunk/src/daniel/stanciu/dropboxnotes/SyncWithDropbox.java:135-264 | for any loop body that keeps the books, a walk that keeps its status sets no message |
| SyncRun.LoopKeepsMessage | trunk/src/daniel/stanciu/dropboxnotes/SyncWithDropbox.java:135-264 | the cursor loop of the sync that keeps its status sets no message |
| SyncRun.Percents | trunk/src/daniel/stanciu/dropboxnotes/SyncWithDropbox.java:262-263 | the list of percentages published while progress goes from one row count to another has one entry per row |
| SyncRun.PercentsInRange | trunk/src/daniel/stanciu/dropboxnotes/SyncWithDropbox.java:262-263 | each of those percentages is within 0..100 while progress stays within the rows |
| SyncRun.LoopWithPublishes | trunk/src/daniel/stanciu/dropboxnotes/SyncWithDropbox.java:262-263 | for any loop body that keeps the books, progress grows by at most the rows walked, and the percentages published are exactly those for each counted row, in order |
| SyncRun.LoopWithProgress | trunk/src/daniel/stanciu/dropboxnotes/SyncWithDropbox.java:262-263 | hence progress never passes the rows walked, one percentage is published per counted row, and every percentage is within 0..100 |
| SyncRun.LoopProgress | trunk/src/daniel/stanciu/dropboxnotes/SyncWithDropbox.java:262-263 | the same for the cursor loop of the sync |
| SyncRun.CancelStops | trunk/src/daniel/stanciu/dropboxnotes/SyncWithDropbox.java:135-139 | cancellation seen at row k: earlier rows are processed as usual, rows from k on are untouched, and the run fails with "Canceled" unless it had already failed |
| SyncRun.NamesOfContains | trunk/src/daniel/stanciu/dropboxnotes/SyncWithDropbox.java:143-149 | the names gathered over a walk keep every earlier name and hold the non-blank name of every row walked |
| SyncRun.LoopWithRemembersNames | trunk/src/daniel/stanciu/dropboxnotes/SyncWithDropbox.java:143-149 | for any loop body that keeps the books, a walk that keeps its status has remembered exactly the starting names followed by each row's non-blank name, in row order |
| SyncRun.LoopWithKeepsValid | trunk/src/daniel/stanciu/dropboxnotes/SyncWithDropbox.java:135-264 | helper (proof step): a walk with a body that keeps the books adds no local row, so every id stays below the next one |
| SyncRun.LoopRemembersNames | trunk/src/daniel/stanciu/dropboxnotes/SyncWithDropbox.java:143-149 | the same for the cursor loop of the sync: deleted rows and rows whose file is missing also add their name |
| SyncRun.Wanted | trunk/src/daniel/stanciu/dropboxnotes/SyncWithDropbox.java:369-376 | the files to download are exactly the live listed files whose name is not remembered: each one comes from the listing, is live and is not remembered, and every such listed file is among them |
| SyncRun.FetchesAppend | trunk/src/daniel/stanciu/dropboxnotes/SyncWithDropbox.java:369-377 | helper (proof step): the downloads of two runs of listed files are the downloads of each in turn |
| SyncRun.AddsRowsCompose | trunk/src/daniel/stanciu/dropboxnotes/SyncWithDropbox.java:369-377 | helper (proof step): rows added for two runs of files in turn are the rows added for both, with the replies counted from the first download |
| SyncRun.CreatedRowAdds | trunk/src/daniel/stanciu/dropboxnotes/SyncWithDropbox.java:377 | a created note whose download went through is one new row with the next id and one download; the row holds the file's title, body, time and name when the stream could be read, and is blank when it broke |
| SyncRun.PullDownKeeps | trunk/src/daniel/stanciu/dropboxnotes/SyncWithDropbox.java:367-378 | the download loop never changes or removes an existing row or a remote file |
| SyncRun.PullDownCreates | trunk/src/daniel/stanciu/dropboxnotes/SyncWithDropbox.java:367-378 | a successful download loop adds one row per wanted file, with the next ids in listing order; each file was in the folder, and its row holds the file's title, body, time and name, or is blank when that download's stream broke; exactly one download is issued per wanted file |
| SyncRun.NamedRowsNotDownloaded | trunk/src/daniel/stanciu/dropboxnotes/SyncWithDropbox.java:143-149 | after a clean walk, no file named by a local row is downloaded again as a new note |
| SyncRun.SyncDownloadsWanted | trunk/src/daniel/stanciu/dropboxnotes/SyncWithDropbox.java:81-401 | a successful run finished the walk with every row's non-blank name remembered, kept every row the walk left, and added exactly one row per live listed file named by no cursor row, deleted rows included, holding that file's note |
| SyncTask.SyncWithDropbox.constructor | trunk/src/daniel/stanciu/dropboxnotes/SyncWithDropbox.java:40-42 | a new task over the given stores starts with status true, no message, no remembered names, no progress and an empty call log |
| SyncTask.SyncWithDropbox.ApiDelete | trunk/src/daniel/stanciu/dropboxnotes/SyncWithDropbox.java:405 | the SDK delete is logged; it removes the path on success, and a missing path answers 404 |
| SyncTask.SyncWithDropbox.ApiGetFileStream | trunk/src/daniel/stanciu/dropboxnotes/SyncWithDropbox.java:421 | the SDK download is logged and returns the stored content on success; a missing path answers 404 |
| SyncTask.SyncWithDropbox.ApiPutFileOverwrite | trunk/src/daniel/stanciu/dropboxnotes/SyncWithDropbox.java:472 | the SDK upload is logged and overwrites the path with the content and the server time on success |
| SyncTask.SyncWithDropbox.DeleteDropboxNote | trunk/src/daniel/stanciu/dropboxnotes/SyncWithDropbox.java:403-406 | updates the stores exactly as `Storage.DeleteDropboxNote` |
| SyncTask.SyncWithDropbox.DeleteLocalNote | trunk/src/daniel/stanciu/dropboxnotes/SyncWithDropbox.java:164 | removes exactly that row |
| SyncTask.SyncWithDropbox.UpdateLocalNote | trunk/src/daniel/stanciu/dropboxnotes/SyncWithDropbox.java:420-446 | reads the stream with the chunk loop and updates the stores exactly as `Storage.UpdateLocalNote` |
| SyncTask.SyncWithDropbox.UpdateNoteModificationTimeAndFileName | trunk/src/daniel/stanciu/dropboxnotes/SyncWithDropbox.java:476-481 | the row, if present, takes the time and name; nothing else changes |
| SyncTask.SyncWithDropbox.InsertDropboxNoteAt | trunk/src/daniel/stanciu/dropboxnotes/SyncWithDropbox.java:469-474 | uploads and stamps exactly as `Storage.InsertDropboxNote` |
| SyncTask.SyncWithDropbox.InsertDropboxNote | trunk/src/daniel/stanciu/dropboxnotes/SyncWithDropbox.java:456-467 | finds the free name with the do-while loop, then uploads as `Storage.InsertNewDropboxNote` |
| SyncTask.SyncWithDropbox.CreateLocalNote | trunk/src/daniel/stanciu/dropboxnotes/SyncWithDropbox.java:408-413 | inserts a blank row and fills it exactly as `Storage.CreateLocalNote` |
| SyncTask.SyncWithDropbox.ProcessNote | trunk/src/daniel/stanciu/dropboxnotes/SyncWithDropbox.java:156-261 | the body of the row's try block and its handlers; the stores and the outcome equal `Reconcile.ProcessRow` |
| SyncTask.SyncWithDropbox.NoteIteration | trunk/src/daniel/stanciu/dropboxnotes/SyncWithDropbox.java:136-263 | one loop iteration (cancel check, remembering the name, the row, progress) equals `SyncRun.NoteStep` |
| SyncTask.SyncWithDropbox.ReconcileNotes | trunk/src/daniel/stanciu/dropboxnotes/SyncWithDropbox.java:124-264 | the cursor loop leaves the task in the state `SyncRun.Loop` describes |
| SyncTask.SyncWithDropbox.DownloadExtraNotes | trunk/src/daniel/stanciu/dropboxnotes/SyncWithDropbox.java:367-398 | the download loop and its handlers leave the task in the state `SyncRun.PullDown` describes |
| SyncTask.SyncWithDropbox.DoInBackground | trunk/src/daniel/stanciu/dropboxnotes/SyncWithDropbox.java:81-401 | the whole run ends in the state `SyncRun.Sync` gives and returns its status; progress stays within the rows, and every published percentage is within 0..100 |

## Left out

- The Android task machinery is left out: the progress dialog, toasts, `onProgressUpdate`, `onPostExecute` and logging. The missing-file toast is modelled as "no change".
- Cancel is a button callback on the UI thread. It is modelled as the index of the first row at whose top the flag is seen. "Canceled" is recorded at that point rather than at the click. A click after the last row is not seen by the loop.
- The Dropbox SDK, the content resolver's id assignment and the clock are outside the model. They are replaced by the oracle, a row-id counter, and server time stamps as plain integers; `RESTUtility.parseDate` is not modelled. The row a bare insert creates (`insert(uri, null)`) is modelled with a null title and body, time 0, deleted flag 0 and no file name; the provider's own column defaults are not modelled, so the "blank" row that a broken download leaves behind stands for whatever those defaults are.
- The listing's file-system paths are modelled as `"/" + name`. The source pulls and pushes on `file.path`, which is the same for a listing of the root folder.
- The file name an upload returns is taken to be the name uploaded to.
- Bytes and the platform charset are not modelled: content is a string of characters.
- The progress value uses floating point, `(int)(100.0 * pos / count + 0.5)`. It is modelled by exact integer rounding, `(200 * pos + count) / (2 * count)`; floating-point error is not modelled.
- `IS_DEBUGGING` is taken to be false, its release value. With it set, the loop and `insertDropboxNote` skip all remote work.
- The cursor is a snapshot of the rows taken before the loop. The rows the loop itself deletes or creates are not re-read.
- The commented-out earlier variants of the loop and of the helpers are not modelled.
- NoteNames.FindFreeName: the `long` counter is unbounded here; wrap-around after 2^63 - 1 is not modelled.
- Directories in the root listing are not filtered out. The source does not filter them either.
- Within one run, names given to new notes are not unique across notes, because the index is not updated after an upload. `Reconcile.NewNotesMayShareName` shows the overwrite; no uniqueness property is claimed.
- The code deletes local rows inline, not in a deferred batch, and it works on one flat folder listing. Its 404 recovery tests `deleted == 0`, while the delete branch tests `deleted == 1`, so a row with any other deleted value is dropped locally on a 404.
- `NotePad.java` (the table's column definitions) and the other activities are not part of this model.

=== FILE: content.dfy ===
/** The text of a note as it is stored in a remote file: the title on the
    first line, the body after it. Encoding is the string concatenation in
    insertDropboxNote; decoding is the BufferedReader use in updateLocalNote. */
module NoteContent {
  import opened Wrappers

  /** What Java's `+` makes of a possibly-null string column. */
  function JavaText(s: Option<string>): string
  {
    match s
    case None => "null"
    case Some(t) => t
  }

  /** Remote file content for a note: `title + "\n" + noteContent`. */
  function Encode(title: Option<string>, body: Option<string>): string
  {
    JavaText(title) + "\n" + JavaText(body)
  }

  /** The characters BufferedReader.readLine treats as line terminators. */
  predicate IsLineBreak(c: char)
  {
    c == '\n' || c == '\r'
  }

  predicate SingleLine(s: string)
  {
    forall i :: 0 <= i < |s| ==> !IsLineBreak(s[i])
  }

  /** The index of the first line terminator at or after `i`, or |c| when
      there is none. */
  function LineEnd(c: string, i: nat): (k: nat)
    requires i <= |c|
    ensures i <= k <= |c|
    ensures k < |c| ==> IsLineBreak(c[k])
    ensures forall j :: i <= j < k ==> !IsLineBreak(c[j])
    decreases |c| - i
  {
    if i == |c| || IsLineBreak(c[i]) then i else LineEnd(c, i + 1)
  }

  /** What readLine returns on a fresh reader over `c`: null on an empty
      stream, otherwise the characters before the first terminator. */
  function ReadLine(c: string): (line: Option<string>)
    ensures line.None? <==> c == []
    ensures line.Some? ==> SingleLine(line.value) && line.value <= c
    ensures line.Some? ==> line.value == c[..LineEnd(c, 0)]
  {
    if c == [] then None else Some(c[..LineEnd(c, 0)])
  }

  /** Where the reader stands after readLine: past the terminator, and past
      a "\r\n" pair as one terminator. */
  function AfterLine(c: string): (next: nat)
    ensures next <= |c|
    ensures LineEnd(c, 0) == |c| ==> next == |c|
    ensures var k := LineEnd(c, 0);
      k < |c| ==> (if k + 2 <= |c| && c[k..k + 2] == "\r\n" then next == k + 2 else next == k + 1)
  {
    var k := LineEnd(c, 0);
    if k == |c| then k
    else if c[k] == '\r' && k + 1 < |c| && c[k + 1] == '\n' then k + 2
    else k + 1
  }

  datatype Decoded = Decoded(title: Option<string>, body: string)

  /** Title and body read back from remote content. */
  function Decode(c: string): Decoded
  {
    Decoded(ReadLine(c), c[AfterLine(c)..])
  }

  /** The read loop of updateLocalNote: the rest of the stream is appended to
      a buffer in chunks of at most 1024 characters. */
  method ReadRemaining(c: string, from: nat) returns (content: string)
    requires from <= |c|
    ensures content == c[from..]
  {
    content := [];
    var i := from;
    while i < |c|
      invariant from <= i <= |c|
      invariant content == c[from..i]
    {
      var readChars := if |c| - i < 1024 then |c| - i else 1024;
      content := content + c[i..i + readChars];
      i := i + readChars;
    }
  }

  /** Reading a whole remote file: one readLine, then the read loop. */
  method ReadNote(c: string) returns (d: Decoded)
    ensures d == Decode(c)
  {
    var body := ReadRemaining(c, AfterLine(c));
    d := Decoded(ReadLine(c), body);
  }

  /** Content round trip: a single-line title and any body come back as
      they were written; a null title comes back as the text "null". */
  lemma {:induction false} DecodeEncode(title: Option<string>, body: Option<string>)
    requires SingleLine(JavaText(title))
    ensures Decode(Encode(title, body)) == Decoded(Some(JavaText(title)), JavaText(body))
  {
    var t := JavaText(title);
    var c := Encode(title, body);
    assert c[|t|] == '\n';
    var k := LineEnd(c, 0);
    assert k == |t|;
    assert c[..k] == t;
  }

  /** The other direction: content whose first terminator is a single "\n"
      is reproduced exactly by encoding what was decoded from it. */
  lemma {:induction false} EncodeDecode(c: string)
    requires LineEnd(c, 0) < |c| && c[LineEnd(c, 0)] == '\n'
    ensures Encode(Decode(c).title, Some(Decode(c).body)) == c
  {
    var k := LineEnd(c, 0);
    assert AfterLine(c) == k + 1;
    assert c == c[..k] + "\n" + c[k + 1..];
  }

  /** A multi-line title does not survive the round trip: only its first
      line comes back, and the rest is prepended to the body. */
  lemma {:induction false} MultiLineTitleSplits(t1: string, t2: string, body: string)
    requires SingleLine(t1)
    ensures Decode(Encode(Some(t1 + "\n" + t2), Some(body))) == Decoded(Some(t1), t2 + "\n" + body)
  {
    var c := Encode(Some(t1 + "\n" + t2), Some(body));
    assert c == t1 + "\n" + (t2 + "\n" + body);
    DecodeEncode(Some(t1), Some(t2 + "\n" + body));
  }
}

=== FILE: dropbox.dfy ===
/** The remote side as the sync engine sees it: entries of the one-level
    listing of "/", the files behind them, the exceptions the Dropbox SDK
    throws and the messages the engine turns them into. */
module Dropbox {
  import opened Wrappers

  /** One child of the listing of "/": its fileName(), its modification
      time (already parsed to an integer) and its tombstone flag. */
  datatype Entry = Entry(name: string, modified: int, isDeleted: bool)

  /** A file in the remote store. */
  datatype RemoteFile = RemoteFile(modified: int, content: string)

  /** The SDK's exception classes: DropboxUnlinkedException,
      DropboxIOException, DropboxParseException, DropboxServerException
      (with its HTTP status and the body's userError and error texts) and
      any other DropboxException. */
  datatype Failure =
    | Unlinked
    | NetworkIO
    | Parse
    | Server(code: int, userError: Option<string>, error: Option<string>)
    | Other

  const NotFoundCode := 404

  /** What the server does with the next call: fail with `fault`, or
      succeed, stamping an upload with `stamp`; `readable` is false when
      the downloaded stream breaks while it is read. */
  datatype Reply = Reply(fault: Option<Failure>, stamp: int, readable: bool)

  /** The remote calls the engine issues, in order. */
  datatype Call = DeletePath(path: string) | FetchPath(path: string) | PutPath(path: string, content: string)

  /** Every child of "/" lives at "/" + its name. */
  function Path(name: string): string
  {
    "/" + name
  }

  /** remoteFiles: the non-deleted entries of the listing keyed by name;
      HashMap.put lets a later entry replace an earlier one. */
  function Index(listing: seq<Entry>): map<string, Entry>
  {
    if listing == [] then map[]
    else
      var m := Index(listing[..|listing| - 1]);
      var e := listing[|listing| - 1];
      if e.isDeleted then m else m[e.name := e]
  }

  /** Each index value is a live entry of the listing, stored under its
      own name. */
  ghost predicate WellKeyed(index: map<string, Entry>)
  {
    forall name :: name in index ==> index[name].name == name && !index[name].isDeleted
  }

  /** Entry i of the listing is live and no later live entry has its name. */
  ghost predicate LastLive(listing: seq<Entry>, i: int)
  {
    0 <= i < |listing| && !listing[i].isDeleted &&
    forall j :: i < j < |listing| ==> listing[j].isDeleted || listing[j].name != listing[i].name
  }

  /** Every value of the index is a live entry stored under its own name,
      and every key is the name of a live entry of the listing. */
  lemma {:induction false} IndexSound(listing: seq<Entry>)
    ensures WellKeyed(Index(listing))
    ensures forall name :: name in Index(listing) ==>
      exists i :: 0 <= i < |listing| && !listing[i].isDeleted && listing[i].name == name
    decreases |listing|
  {
    if listing != [] {
      var init := listing[..|listing| - 1];
      IndexSound(init);
      forall name | name in Index(listing)
        ensures exists i :: 0 <= i < |listing| && !listing[i].isDeleted && listing[i].name == name
      {
        if name !in Index(init) {
          assert listing[|listing| - 1].name == name;
        } else {
          var i :| 0 <= i < |init| && !init[i].isDeleted && init[i].name == name;
          assert listing[i] == init[i];
        }
      }
    }
  }

  /** Every live entry's name is a key, mapped to the last live entry of
      that name. */
  lemma {:induction false} IndexComplete(listing: seq<Entry>)
    ensures forall i :: 0 <= i < |listing| && !listing[i].isDeleted ==> listing[i].name in Index(listing)
    ensures forall i :: LastLive(listing, i) ==> Index(listing)[listing[i].name] == listing[i]
    decreases |listing|
  {
    if listing != [] {
      var init := listing[..|listing| - 1];
      IndexComplete(init);
      forall i | 0 <= i < |listing| && !listing[i].isDeleted
        ensures listing[i].name in Index(listing)
      {
        if i < |init| {
          assert init[i] == listing[i];
        }
      }
      forall i | LastLive(listing, i)
        ensures Index(listing)[listing[i].name] == listing[i]
      {
        if i < |init| {
          assert init[i] == listing[i];
          assert LastLive(init, i);
        }
      }
    }
  }

  /** The loop of doInBackground that fills remoteFiles from the listing. */
  method BuildIndex(listing: seq<Entry>) returns (remoteFiles: map<string, Entry>)
    ensures remoteFiles == Index(listing)
  {
    remoteFiles := map[];
    for i := 0 to |listing|
      invariant remoteFiles == Index(listing[..i])
    {
      assert listing[..i + 1][..i] == listing[..i];
      var file := listing[i];
      if file.isDeleted {
        continue;
      }
      remoteFiles := remoteFiles[file.name := file];
    }
    assert listing[..|listing|] == listing;
  }

  const LinkMessage := "Please link with dropbox."
  const NetworkMessage := "Network error.  Try again."
  const ParseMessage := "Dropbox error.  Try again."
  const UnknownMessage := "Unknown error.  Try again."

  /** The four fixed messages of a handler that catches the unlinked, IO
      and parse exceptions and then DropboxException as a whole. */
  ghost predicate IsFixedMessage(m: string)
  {
    m == LinkMessage || m == NetworkMessage || m == ParseMessage || m == UnknownMessage
  }

  /** The handler around the listing, the pull-down and the 404 recovery:
      a server exception falls into the DropboxException catch. */
  function CoarseMessage(f: Failure): (m: string)
    ensures IsFixedMessage(m)
    ensures f.Server? ==> m == UnknownMessage
  {
    match f
    case Unlinked => LinkMessage
    case NetworkIO => NetworkMessage
    case Parse => ParseMessage
    case _ => UnknownMessage
  }

  /** The per-note handler, for every failure but a 404: a server
      exception reports the server's userError, else its error text (either
      may be null). */
  function RowMessage(f: Failure): (m: Option<string>)
    ensures !f.Server? ==> m == Some(CoarseMessage(f))
    ensures f.Server? && f.userError.Some? ==> m == f.userError
    ensures f.Server? && f.userError.None? ==> m == f.error
  {
    match f
    case Server(_, userError, error) => if userError.Some? then userError else error
    case _ => Some(CoarseMessage(f))
  }

  predicate IsNotFound(f: Failure)
  {
    f.Server? && f.code == NotFoundCode
  }
}

=== FILE: names.dfy ===
/** Generated remote file names for notes that were never synced:
    getFileNameForNoteId and the collision loop of insertDropboxNote. */
module NoteNames {

  function DigitChar(d: nat): (c: char)
    requires d < 10
    ensures '0' <= c <= '9'
    ensures c as int - '0' as int == d
  {
    (d + '0' as int) as char
  }

  /** The number a string of decimal digits denotes. */
  function DecimalValue(s: string): int
  {
    if s == [] then 0 else 10 * DecimalValue(s[..|s| - 1]) + (s[|s| - 1] as int - '0' as int)
  }

  /** Decimal digits of a non-negative number, most significant first. */
  function Digits(n: nat): (s: string)
    ensures |s| >= 1
    ensures forall i :: 0 <= i < |s| ==> '0' <= s[i] <= '9'
    ensures n < 10 <==> |s| == 1
    decreases n
  {
    if n < 10 then [DigitChar(n)] else Digits(n / 10) + [DigitChar(n % 10)]
  }

  /** The digits denote the number, and only zero itself starts with '0'. */
  lemma {:induction false} DigitsDenote(n: nat)
    ensures DecimalValue(Digits(n)) == n
    ensures Digits(n)[0] == '0' <==> n == 0
    decreases n
  {
    if n >= 10 {
      var s := Digits(n);
      DigitsDenote(n / 10);
      assert s[..|s| - 1] == Digits(n / 10);
      assert s[0] == Digits(n / 10)[0];
    }
  }

  /** Long.toString: a minus sign for negative numbers, then the digits. */
  function DecimalText(n: int): string
  {
    if n < 0 then "-" + Digits(-n) else Digits(n)
  }

  /** getFileNameForNoteId: "Note" + noteId + ".txt". */
  function NoteFileName(noteId: int): string
  {
    "Note" + DecimalText(noteId) + ".txt"
  }

  lemma {:induction false} DigitsInjective(a: nat, b: nat)
    requires Digits(a) == Digits(b)
    ensures a == b
    decreases a
  {
    var s := Digits(a);
    if a < 10 {
      assert s[0] == DigitChar(a) && Digits(b)[0] == DigitChar(b);
    } else {
      assert s == Digits(a / 10) + [DigitChar(a % 10)];
      assert s == Digits(b / 10) + [DigitChar(b % 10)];
      assert Digits(a / 10) == s[..|s| - 1] == Digits(b / 10);
      assert DigitChar(a % 10) == s[|s| - 1] == DigitChar(b % 10);
      DigitsInjective(a / 10, b / 10);
    }
  }

  lemma {:induction false} DecimalTextInjective(a: int, b: int)
    requires DecimalText(a) == DecimalText(b)
    ensures a == b
  {
    var s := DecimalText(a);
    assert Digits(if a < 0 then -a else a)[0] != '-';
    assert Digits(if b < 0 then -b else b)[0] != '-';
    assert s[0] == '-' <==> a < 0;
    assert s[0] == '-' <==> b < 0;
    if a < 0 {
      assert Digits(-a) == s[1..] == Digits(-b);
      DigitsInjective(-a, -b);
    } else {
      DigitsInjective(a, b);
    }
  }

  /** Distinct note ids give distinct file names. */
  lemma {:induction false} NoteFileNameInjective(a: int, b: int)
    requires NoteFileName(a) == NoteFileName(b)
    ensures a == b
  {
    var s := NoteFileName(a);
    assert DecimalText(a) == s[4..|s| - 4] == DecimalText(b);
    DecimalTextInjective(a, b);
  }

  /** k is the index the collision loop stops at when it starts from lo:
      its name is free, and every index from lo up to it is taken. */
  ghost predicate IsFreeIndex(names: set<string>, lo: int, k: int)
  {
    lo <= k && NoteFileName(k) !in names &&
    forall j :: lo <= j < k ==> NoteFileName(j) in names
  }

  ghost function NamesFrom(lo: int, k: int): set<string>
    requires lo <= k
  {
    set j | lo <= j < k :: NoteFileName(j)
  }

  lemma {:induction false} NamesFromSize(lo: int, k: int)
    requires lo <= k
    ensures |NamesFrom(lo, k)| == k - lo
    decreases k - lo
  {
    if k == lo {
      assert NamesFrom(lo, k) == {};
    } else {
      NamesFromSize(lo, k - 1);
      assert NamesFrom(lo, k) == NamesFrom(lo, k - 1) + {NoteFileName(k - 1)};
      if NoteFileName(k - 1) in NamesFrom(lo, k - 1) {
        var j :| lo <= j < k - 1 && NoteFileName(j) == NoteFileName(k - 1);
        NoteFileNameInjective(j, k - 1);
      }
    }
  }

  lemma {:induction false} SubsetSize(a: set<string>, b: set<string>)
    requires a <= b
    ensures |a| <= |b|
    decreases a
  {
    if a != {} {
      var x :| x in a;
      SubsetSize(a - {x}, b - {x});
    }
  }

  /** Pigeonhole: the indices from lo that are all taken number no more than
      the names there are, so the collision loop stops. */
  lemma TakenIndicesBound(names: set<string>, lo: int, k: int)
    requires lo <= k
    requires forall j :: lo <= j < k ==> NoteFileName(j) in names
    ensures k - lo <= |names|
  {
    NamesFromSize(lo, k);
    SubsetSize(NamesFrom(lo, k), names);
  }

  /** The index the collision loop of insertDropboxNote stops at, searching
      upwards from k when all of [lo, k) are taken. */
  function FreeIndexFrom(names: set<string>, lo: int, k: int): (r: int)
    requires lo <= k
    requires forall j :: lo <= j < k ==> NoteFileName(j) in names
    ensures IsFreeIndex(names, lo, r)
    decreases |names| - (k - lo)
  {
    TakenIndicesBound(names, lo, k);
    if NoteFileName(k) !in names then k
    else
      TakenIndicesBound(names, lo, k + 1);
      FreeIndexFrom(names, lo, k + 1)
  }

  function FreeIndex(names: set<string>, noteId: int): int
  {
    FreeIndexFrom(names, noteId, noteId)
  }

  /** The stopping index is determined by the taken names alone. */
  lemma FreeIndexUnique(names: set<string>, lo: int, k1: int, k2: int)
    requires IsFreeIndex(names, lo, k1) && IsFreeIndex(names, lo, k2)
    ensures k1 == k2
  {
  }

  /** The do-while loop of insertDropboxNote: try "Note<id>.txt", then keep
      incrementing the id while the name is a key of the remote index. */
  method FindFreeName(names: set<string>, noteId: int) returns (fileName: string)
    ensures fileName == NoteFileName(FreeIndex(names, noteId))
    ensures fileName !in names
  {
    var id := noteId;
    fileName := NoteFileName(id);
    id := id + 1;
    while fileName in names
      invariant noteId < id && fileName == NoteFileName(id - 1)
      invariant forall j :: noteId <= j < id - 1 ==> NoteFileName(j) in names
      decreases |names| - (id - noteId)
    {
      TakenIndicesBound(names, noteId, id);
      fileName := NoteFileName(id);
      id := id + 1;
    }
    FreeIndexUnique(names, noteId, id - 1, FreeIndex(names, noteId));
  }

  /** With Note5.txt .. Note9.txt taken, id 5 gets Note10.txt. */
  lemma CollisionExample(names: set<string>)
    requires names == {NoteFileName(5), NoteFileName(6), NoteFileName(7), NoteFileName(8), NoteFileName(9)}
    ensures FreeIndex(names, 5) == 10
  {
    var k := FreeIndex(names, 5);
    assert NoteFileName(10) !in names;
    assert forall j :: 5 <= j < 10 ==> NoteFileName(j) in names;
    assert !(5 <= k < 10) && !(k > 10);
  }
}

=== FILE: reconcile.dfy ===
/** The body of the per-note loop of doInBackground: what to do with one
    cursor row (Decide), doing it against the stores (ProcessRow), and the
    exception handlers around it, including the 404 recovery. */
module Reconcile {
  import opened Wrappers
  import opened NoteContent
  import opened NoteNames
  import opened Dropbox
  import opened Storage

  /** String.trim().isEmpty(): every character is at most U+0020. */
  predicate IsBlank(s: string)
  {
    forall i :: 0 <= i < |s| ==> s[i] <= ' '
  }

  /** The row's file name, with a blank one treated as no name at all. */
  function KnownName(fileName: Option<string>): Option<string>
  {
    if fileName.Some? && !IsBlank(fileName.value) then fileName else None
  }

  /** The choice the loop body makes for one row. */
  datatype Action =
    | RemoveBoth(fileName: string)   // deleted row with a remote file
    | RemoveLocal                    // deleted row never uploaded
    | Pull(file: Entry)              // remote copy is newer
    | Push(file: Entry)              // local copy is newer
    | Unchanged                      // same modification time
    | Missing(fileName: string)      // named file is not in the listing
    | Create                         // never uploaded

  function Decide(note: Note, index: map<string, Entry>): Action
  {
    var name := KnownName(note.fileName);
    if note.deleted == 1 then
      if name.Some? then RemoveBoth(name.value) else RemoveLocal
    else if name.Some? then
      if name.value in index then
        var file := index[name.value];
        if file.modified > note.modified then Pull(file)
        else if file.modified < note.modified then Push(file)
        else Unchanged
      else Missing(name.value)
    else Create
  }

  /** The decision for a row: deleted rows are removed (remotely too when
      named), unnamed rows are uploaded new, named rows missing from the
      listing are reported, and otherwise the newer time wins. */
  lemma DecideClassifies(note: Note, index: map<string, Entry>)
    ensures var a := Decide(note, index);
      var name := KnownName(note.fileName);
      (a.RemoveBoth? || a.RemoveLocal? <==> note.deleted == 1) &&
      (a.RemoveBoth? ==> name == Some(a.fileName)) &&
      (a.Create? <==> note.deleted != 1 && name.None?) &&
      (a.Missing? <==> note.deleted != 1 && name.Some? && name.value !in index) &&
      (a.Pull? || a.Push? || a.Unchanged? <==> note.deleted != 1 && name.Some? && name.value in index) &&
      (a.Pull? || a.Push? ==> name.Some? && name.value in index && a.file == index[name.value]) &&
      (a.Pull? ==> a.file.modified > note.modified) &&
      (a.Push? ==> a.file.modified < note.modified) &&
      (a.Unchanged? ==> name.Some? && name.value in index && index[name.value].modified == note.modified)
  {
  }

  /** How the loop goes on after a row: `continue` without counting it,
      reach the progress update, or leave the loop with a message. */
  datatype RowOutcome = Continue | Advance | Abort(message: Option<string>)

  datatype RowResult = RowResult(stores: Stores, outcome: RowOutcome)

  /** The handlers after a remote call of the loop body failed with f
      (the state `s` already holds the failed call). A 404 uploads the note
      under a fresh name when the row is not deleted (deleted == 0) and
      removes the local row otherwise; anything the recovery throws is
      reported with the coarse message. Other failures end the loop. */
  function Recover(s: Stores, row: Row, index: map<string, Entry>, f: Failure, oracle: Oracle): RowResult
  {
    if IsNotFound(f) then
      if row.note.deleted == 0 then
        var e := InsertNewDropboxNote(s, row.id, row.id, row.note.title, row.note.body, index.Keys, oracle);
        if e.fault.None? then RowResult(e.stores, Advance)
        else RowResult(e.stores, Abort(Some(CoarseMessage(e.fault.value))))
      else RowResult(DeleteLocalNote(s, row.id), Advance)
    else RowResult(s, Abort(RowMessage(f)))
  }

  function Finish(e: Effect, row: Row, index: map<string, Entry>, oracle: Oracle): RowResult
  {
    if e.fault.None? then RowResult(e.stores, Advance) else Recover(e.stores, row, index, e.fault.value, oracle)
  }

  /** One pass of the loop body over a row, from the cancellation check
      onwards excluded. */
  function ProcessRow(s: Stores, row: Row, index: map<string, Entry>, oracle: Oracle): RowResult
  {
    match Decide(row.note, index)
    case RemoveBoth(name) =>
      var e := DeleteDropboxNote(s, name, oracle);
      if e.fault.None? then RowResult(DeleteLocalNote(e.stores, row.id), Continue)
      else Recover(e.stores, row, index, e.fault.value, oracle)
    case RemoveLocal => RowResult(DeleteLocalNote(s, row.id), Continue)
    case Pull(file) => Finish(UpdateLocalNote(s, row.id, file, file.modified, oracle), row, index, oracle)
    case Push(file) => Finish(InsertDropboxNote(s, row.id, file.name, row.note.title, row.note.body, oracle), row, index, oracle)
    case Unchanged => RowResult(s, Continue)
    case Missing(_) => RowResult(s, Advance)
    case Create =>
      Finish(InsertNewDropboxNote(s, row.id, row.id, row.note.title, row.note.body, index.Keys, oracle), row, index, oracle)
  }

  /** One row never adds a local row nor uses up an id: the table only
      loses the row or has it updated. */
  lemma RowKeepsIds(s: Stores, row: Row, index: map<string, Entry>, oracle: Oracle)
    ensures var r := ProcessRow(s, row, index, oracle);
      r.stores.nextId == s.nextId && r.stores.db.Keys <= s.db.Keys
  {
    var a := Decide(row.note, index);
    if CallsRemote(a) {
      var e := Attempt(s, row, a, index, oracle);
      if e.fault.Some? {
        assert ProcessRow(s, row, index, oracle) == Recover(e.stores, row, index, e.fault.value, oracle);
      } else {
        assert ProcessRow(s, row, index, oracle).stores ==
               if a.RemoveBoth? then DeleteLocalNote(e.stores, row.id) else e.stores;
      }
    }
  }

  /** The remote delete a deleted row is owed: one, at "/" + its name,
      when the name is not blank. */
  function DeleteCalls(row: Row): seq<Call>
  {
    var name := KnownName(row.note.fileName);
    if name.Some? then [DeletePath(Path(name.value))] else []
  }

  /** A row marked deleted gets exactly its owed remote delete and no
      upload or download; its local row is removed unless the delete
      failed with something other than a 404, which ends the loop. The
      row counts towards progress only when its delete answered 404;
      otherwise the loop goes on to the next row without counting it. */
  lemma DeletedRow(s: Stores, row: Row, index: map<string, Entry>, oracle: Oracle)
    requires row.note.deleted == 1
    ensures var r := ProcessRow(s, row, index, oracle);
      var a := Decide(row.note, index);
      (r.outcome == Advance <==> a.RemoveBoth? && Attempt(s, row, a, index, oracle).fault.Some? &&
                                 IsNotFound(Attempt(s, row, a, index, oracle).fault.value)) &&
      r.stores.trace == s.trace + DeleteCalls(row) &&
      r.stores.nextId == s.nextId &&
      (r.outcome.Abort? <==> DeleteCalls(row) != [] && NextReply(s, oracle).fault.Some? &&
                             !IsNotFound(NextReply(s, oracle).fault.value)) &&
      (!r.outcome.Abort? ==> r.stores.db == s.db - {row.id}) &&
      (r.outcome.Abort? ==> r.outcome == Abort(RowMessage(NextReply(s, oracle).fault.value)) &&
                            r.stores.db == s.db && r.stores.files == s.files) &&
      (r.stores.files == s.files || r.stores.files == s.files - {Path(KnownName(row.note.fileName).value)})
  {
  }

  /** Last writer wins, remote side: a newer remote file is downloaded into
      the row, which takes its title, body, time and name. */
  lemma RemoteNewerPulls(s: Stores, row: Row, index: map<string, Entry>, oracle: Oracle)
    requires WellKeyed(index)
    requires row.note.deleted != 1
    requires KnownName(row.note.fileName).Some?
    requires var name := KnownName(row.note.fileName).value;
      name in index && index[name].modified > row.note.modified && Path(name) in s.files
    requires NextReply(s, oracle).fault.None? && NextReply(s, oracle).readable && row.id in s.db
    ensures var name := row.note.fileName.value;
      var file := index[name];
      ProcessRow(s, row, index, oracle) ==
      RowResult(s.(db := s.db[row.id := PulledNote(s.db[row.id], file, file.modified, s.files[Path(name)].content)],
                   trace := s.trace + [FetchPath(Path(name))]),
                Advance)
  {
  }

  /** Last writer wins, local side: a newer local note is uploaded over the
      remote file, and the row takes the time the server returns. */
  lemma LocalNewerPushes(s: Stores, row: Row, index: map<string, Entry>, oracle: Oracle)
    requires WellKeyed(index)
    requires row.note.deleted != 1
    requires KnownName(row.note.fileName).Some?
    requires var name := KnownName(row.note.fileName).value;
      name in index && index[name].modified < row.note.modified
    requires NextReply(s, oracle).fault.None?
    ensures var name := row.note.fileName.value;
      var content := Encode(row.note.title, row.note.body);
      var stamp := NextReply(s, oracle).stamp;
      ProcessRow(s, row, index, oracle) ==
      RowResult(s.(files := s.files[Path(name) := RemoteFile(stamp, content)],
                   db := StampNote(s.db, row.id, stamp, name),
                   trace := s.trace + [PutPath(Path(name), content)]),
                Advance)
  {
  }

  /** Equal times: nothing happens, whatever the contents are, and the row
      does not count towards progress. */
  lemma EqualTimesSkip(s: Stores, row: Row, index: map<string, Entry>, oracle: Oracle)
    requires row.note.deleted != 1
    requires KnownName(row.note.fileName).Some?
    requires var name := KnownName(row.note.fileName).value;
      name in index && index[name].modified == row.note.modified
    ensures ProcessRow(s, row, index, oracle) == RowResult(s, Continue)
  {
  }

  /** A named file absent from the listing only draws a warning: neither
      store changes, and the row counts towards progress. */
  lemma MissingFileWarns(s: Stores, row: Row, index: map<string, Entry>, oracle: Oracle)
    requires row.note.deleted != 1
    requires KnownName(row.note.fileName).Some? && KnownName(row.note.fileName).value !in index
    ensures ProcessRow(s, row, index, oracle) == RowResult(s, Advance)
  {
  }

  /** A note never uploaded goes to the first free "Note<k>.txt" with k
      from its id: a name not in the listing, every name between taken. */
  lemma NewNoteUploaded(s: Stores, row: Row, index: map<string, Entry>, oracle: Oracle)
    requires row.note.deleted != 1 && KnownName(row.note.fileName).None?
    requires NextReply(s, oracle).fault.None?
    ensures var k := FreeIndex(index.Keys, row.id);
      var name := NoteFileName(k);
      var content := Encode(row.note.title, row.note.body);
      var stamp := NextReply(s, oracle).stamp;
      IsFreeIndex(index.Keys, row.id, k) && name !in index &&
      ProcessRow(s, row, index, oracle) ==
      RowResult(s.(files := s.files[Path(name) := RemoteFile(stamp, content)],
                   db := StampNote(s.db, row.id, stamp, name),
                   trace := s.trace + [PutPath(Path(name), content)]),
                Advance)
  {
  }

  /** The index is not updated after an upload, so two new notes in one
      run can be given the same name: with "Note5.txt" taken, notes 5 and 6
      both go to "Note6.txt" and the second upload overwrites the first. */
  lemma NewNotesMayShareName(s: Stores, first: Row, second: Row, index: map<string, Entry>, oracle: Oracle)
    requires index.Keys == {NoteFileName(5)}
    requires first.id == 5 && second.id == 6
    requires first.note.deleted == 0 && first.note.fileName == None
    requires second.note.deleted == 0 && second.note.fileName == None
    requires forall n :: oracle(n).fault.None?
    ensures var r1 := ProcessRow(s, first, index, oracle);
      var r2 := ProcessRow(r1.stores, second, index, oracle);
      var name := NoteFileName(6);
      r2.stores.trace == s.trace + [PutPath(Path(name), Encode(first.note.title, first.note.body)),
                                    PutPath(Path(name), Encode(second.note.title, second.note.body))] &&
      Path(name) in r2.stores.files && r2.stores.files[Path(name)].content == Encode(second.note.title, second.note.body)
  {
    var names := index.Keys;
    assert NoteFileName(5)[4] == '5' && NoteFileName(6)[4] == '6';
    assert NoteFileName(6) !in names;
    assert FreeIndex(names, 6) == 6;
    assert FreeIndex(names, 5) == 6 by {
      assert NoteFileName(5) in names;
      assert IsFreeIndex(names, 5, FreeIndex(names, 5));
    }
    var r1 := ProcessRow(s, first, index, oracle);
    NewNoteUploaded(s, first, index, oracle);
    NewNoteUploaded(r1.stores, second, index, oracle);
  }

  /** The remote call a row's action starts with, if any. */
  predicate CallsRemote(a: Action)
  {
    a.RemoveBoth? || a.Pull? || a.Push? || a.Create?
  }

  /** A first call that fails with anything but a 404 ends the loop with
      the per-note message, and neither store changes for that row. */
  lemma FailureAborts(s: Stores, row: Row, index: map<string, Entry>, oracle: Oracle)
    requires CallsRemote(Decide(row.note, index))
    requires NextReply(s, oracle).fault.Some? && !IsNotFound(NextReply(s, oracle).fault.value)
    ensures var r := ProcessRow(s, row, index, oracle);
      r.outcome == Abort(RowMessage(NextReply(s, oracle).fault.value)) &&
      r.stores.db == s.db && r.stores.files == s.files && |r.stores.trace| == |s.trace| + 1
  {
  }

  /** The remote call that opens an action: the delete, the download, the
      upload over the named file or the first upload under a free name. */
  function Attempt(s: Stores, row: Row, a: Action, index: map<string, Entry>, oracle: Oracle): (e: Effect)
    requires CallsRemote(a)
    ensures |e.stores.trace| == |s.trace| + 1 && e.stores.nextId == s.nextId
    ensures e.fault.Some? ==> e.stores.db == s.db && e.stores.files == s.files
    ensures e.stores.db.Keys <= s.db.Keys
  {
    match a
    case RemoveBoth(name) => DeleteDropboxNote(s, name, oracle)
    case Pull(file) => UpdateLocalNote(s, row.id, file, file.modified, oracle)
    case Push(file) => InsertDropboxNote(s, row.id, file.name, row.note.title, row.note.body, oracle)
    case Create => InsertNewDropboxNote(s, row.id, row.id, row.note.title, row.note.body, index.Keys, oracle)
  }

  /** A 404 on a row that is not deleted, whether the server sent it or
      the file has gone from the folder, does not end the loop: the note
      is uploaded again under the first free name, and the row is stamped
      with the server's time. Only a failure of that upload ends the loop,
      with the coarse message, and then neither store changes. */
  lemma NotFoundRecreates(s: Stores, row: Row, index: map<string, Entry>, oracle: Oracle)
    requires row.note.deleted == 0
    requires CallsRemote(Decide(row.note, index))
    requires var e := Attempt(s, row, Decide(row.note, index), index, oracle);
      e.fault.Some? && IsNotFound(e.fault.value)
    ensures var e := Attempt(s, row, Decide(row.note, index), index, oracle);
      var r := ProcessRow(s, row, index, oracle);
      var retry := oracle(|s.trace| + 1);
      var name := NoteFileName(FreeIndex(index.Keys, row.id));
      var content := Encode(row.note.title, row.note.body);
      name !in index &&
      r.stores.trace == e.stores.trace + [PutPath(Path(name), content)] &&
      r.stores.nextId == s.nextId &&
      (retry.fault.None? ==>
         r.outcome == Advance &&
         r.stores.files == s.files[Path(name) := RemoteFile(retry.stamp, content)] &&
         r.stores.db == StampNote(s.db, row.id, retry.stamp, name)) &&
      (retry.fault.Some? ==>
         r.outcome == Abort(Some(CoarseMessage(retry.fault.value))) &&
         r.stores.files == s.files && r.stores.db == s.db)
  {
    var a := Decide(row.note, index);
    var e := Attempt(s, row, a, index, oracle);
    assert ProcessRow(s, row, index, oracle) == Recover(e.stores, row, index, e.fault.value, oracle);
  }

  /** The remote time of every listed name agrees with the store. */
  ghost predicate Agrees(index: map<string, Entry>, files: map<string, RemoteFile>)
  {
    forall name :: name in index ==> Path(name) in files && files[Path(name)].modified == index[name].modified
  }

  /** What a fresh listing of the store would give: exactly the stored
      files, each under its name with its time. */
  ghost predicate Mirrors(index: map<string, Entry>, files: map<string, RemoteFile>)
  {
    WellKeyed(index) && Agrees(index, files) &&
    forall name :: Path(name) in files ==> name in index
  }

  lemma NoteFileNameNotBlank(k: int)
    ensures !IsBlank(NoteFileName(k))
  {
    assert NoteFileName(k)[0] == 'N';
  }

  /** A sync makes the row pristine: after a successful download, upload
      or first upload, the updated row meets an equal remote time on the
      next pass and is skipped. */
  lemma SyncedRowIsPristine(s: Stores, row: Row, index: map<string, Entry>, oracle: Oracle, next: map<string, Entry>)
    requires WellKeyed(index) && Agrees(index, s.files)
    requires row.id in s.db && s.db[row.id] == row.note
    requires var a := Decide(row.note, index); a.Pull? || a.Push? || a.Create?
    requires NextReply(s, oracle).fault.None? && NextReply(s, oracle).readable
    ensures var r := ProcessRow(s, row, index, oracle);
      r.outcome == Advance && row.id in r.stores.db &&
      (Mirrors(next, r.stores.files) ==> Decide(r.stores.db[row.id], next) == Unchanged)
  {
    var r := ProcessRow(s, row, index, oracle);
    match Decide(row.note, index)
    case Pull(file) =>
    case Push(file) =>
    case Create =>
      NoteFileNameNotBlank(FreeIndex(index.Keys, row.id));
  }
}

=== FILE: run.dfy ===
/** doInBackground as a function of its inputs: build the index, walk the
    cursor rows (cancellation, bookkeeping of seen file names, progress),
    then download every listed file no row names. */
module SyncRun {
  import opened Wrappers
  import opened Dropbox
  import opened Storage
  import opened Reconcile

  /** The state doInBackground carries: the stores, `status`, `mErrorMsg`,
      `pos`, `localNotes`, and the progress values published so far. */
  datatype Progress = Progress(
    stores: Stores,
    status: bool,
    message: Option<string>,
    pos: nat,
    localNotes: seq<string>,
    published: seq<int>)

  const CanceledMessage := "Canceled"
  const NoCursorMessage := "Could not get cursor"

  lemma ProductAtLeast(d: int, x: int)
    requires d > 0 && x >= 1
    ensures d * x >= d
  {
    assert d * x == d * (x - 1) + d;
  }

  lemma DivideExactly(n: int, d: int, q: int, r: int)
    requires d > 0 && 0 <= r < d && n == d * q + r
    ensures n / d == q
  {
    var q', r' := n / d, n % d;
    assert d * q' + r' == d * q + r;
    if q' < q {
      ProductAtLeast(d, q - q');
    } else if q' > q {
      ProductAtLeast(d, q' - q);
    }
  }

  lemma QuotientBelow(n: int, d: int, m: int)
    requires d > 0 && 0 <= n < d * m
    ensures 0 <= n / d < m
  {
    var q, r := n / d, n % d;
    assert n == d * q + r;
    if q < 0 {
      ProductAtLeast(d, -q);
    } else if q >= m {
      ProductAtLeast(d, q - m + 1);
    }
  }

  /** (int)(100.0 * pos / count + 0.5), in integer arithmetic. */
  function Percent(pos: int, count: int): (p: int)
    ensures 0 <= pos <= count ==> 0 <= p <= 100
    ensures 0 < pos == count ==> p == 100
  {
    if count <= 0 then 0
    else
      var p := (200 * pos + count) / (2 * count);
      assert 0 <= pos <= count ==> 0 <= p <= 100 by {
        if 0 <= pos <= count {
          QuotientBelow(200 * pos + count, 2 * count, 101);
        }
      }
      assert 0 < pos == count ==> p == 100 by {
        if 0 < pos == count {
          DivideExactly(200 * pos + count, 2 * count, 100, count);
        }
      }
      p
  }

  /** The cancel flag is observed from iteration `cancelAt` on. */
  predicate Canceled(cancelAt: Option<nat>, i: nat)
  {
    cancelAt.Some? && cancelAt.value <= i
  }

  /** localNotes.add(fileName) for a row whose name is not blank. */
  function Remember(localNotes: seq<string>, row: Row): seq<string>
  {
    match KnownName(row.note.fileName)
    case Some(name) => localNotes + [name]
    case None => localNotes
  }

  /** One iteration of the cursor loop, row i of count. */
  function NoteStep(p: Progress, i: nat, row: Row, count: int, index: map<string, Entry>,
                    oracle: Oracle, cancelAt: Option<nat>): Progress
  {
    if Canceled(cancelAt, i) then p.(status := false, message := Some(CanceledMessage))
    else
      var notes := Remember(p.localNotes, row);
      var r := ProcessRow(p.stores, row, index, oracle);
      match r.outcome
      case Continue => p.(stores := r.stores, localNotes := notes)
      case Advance =>
        p.(stores := r.stores, localNotes := notes, pos := p.pos + 1,
           published := p.published + [Percent(p.pos + 1, count)])
      case Abort(m) => p.(stores := r.stores, localNotes := notes, status := false, message := m)
  }

  /** A body of the cursor loop: row i of the cursor applied to the
      progress so far. */
  type Step = (Progress, nat, Row) -> Progress

  /** The cursor loop with a given body over rows i up to (not including)
      end; a false status has left the loop. */
  function LoopWith(p: Progress, rows: seq<Row>, i: nat, end: nat, step: Step): Progress
    requires i <= end <= |rows|
    decreases end - i
  {
    if i == end || !p.status then p
    else LoopWith(step(p, i, rows[i]), rows, i + 1, end, step)
  }

  /** The body of the cursor loop of doInBackground, for count rows. */
  function RowStep(count: int, index: map<string, Entry>, oracle: Oracle, cancelAt: Option<nat>): Step
  {
    (p: Progress, i: nat, row: Row) => NoteStep(p, i, row, count, index, oracle, cancelAt)
  }

  /** The cursor loop of doInBackground over rows i up to end. The whole
      loop has end == |rows|. */
  function Loop(p: Progress, rows: seq<Row>, i: nat, end: nat, index: map<string, Entry>,
                oracle: Oracle, cancelAt: Option<nat>): Progress
    requires i <= end <= |rows|
  {
    LoopWith(p, rows, i, end, RowStep(|rows|, index, oracle, cancelAt))
  }

  /** The cursor loop ends at the end of the rows or at a failed status. */
  lemma LoopStops(p: Progress, rows: seq<Row>, i: nat, end: nat, index: map<string, Entry>,
                  oracle: Oracle, cancelAt: Option<nat>)
    requires i <= end <= |rows| && (i == end || !p.status)
    ensures Loop(p, rows, i, end, index, oracle, cancelAt) == p
  {
  }

  /** Otherwise it runs the row step on row i and goes on with row i + 1. */
  lemma LoopUnfolds(p: Progress, rows: seq<Row>, i: nat, end: nat, index: map<string, Entry>,
                    oracle: Oracle, cancelAt: Option<nat>)
    requires i < end <= |rows| && p.status
    ensures Loop(p, rows, i, end, index, oracle, cancelAt) ==
            Loop(NoteStep(p, i, rows[i], |rows|, index, oracle, cancelAt), rows, i + 1, end, index, oracle, cancelAt)
  {
    assert RowStep(|rows|, index, oracle, cancelAt)(p, i, rows[i]) == NoteStep(p, i, rows[i], |rows|, index, oracle, cancelAt);
  }

  /** How one pass of the body may change the bookkeeping: progress moves
      by at most one row, with one percentage for a counted row, no local
      row is added, and a pass that keeps the status keeps the message and
      has remembered the row's name. */
  ghost predicate KeepsBooks(p: Progress, row: Row, count: int, q: Progress)
  {
    (Valid(p.stores) ==> Valid(q.stores)) &&
    ((q.pos == p.pos && q.published == p.published) ||
     (q.pos == p.pos + 1 && q.published == p.published + [Percent(q.pos, count)])) &&
    (q.status ==> p.status && q.message == p.message && q.localNotes == Remember(p.localNotes, row))
  }

  ghost predicate StepKeepsBooks(step: Step, count: int)
  {
    forall p, i, row :: KeepsBooks(p, row, count, step(p, i, row))
  }

  /** The row step of doInBackground keeps the books. */
  lemma RowStepKeepsBooks(count: int, index: map<string, Entry>, oracle: Oracle, cancelAt: Option<nat>)
    ensures StepKeepsBooks(RowStep(count, index, oracle, cancelAt), count)
  {
    var step := RowStep(count, index, oracle, cancelAt);
    forall p, i, row
      ensures KeepsBooks(p, row, count, step(p, i, row))
    {
      assert step(p, i, row) == NoteStep(p, i, row, count, index, oracle, cancelAt);
      RowKeepsIds(p.stores, row, index, oracle);
    }
  }


  /** The download loop over the listing from entry j on: every live entry
      whose name no row gave becomes a new local note. */
  function PullDown(p: Progress, listing: seq<Entry>, j: nat, oracle: Oracle): Progress
    requires j <= |listing|
    decreases |listing| - j
  {
    if j == |listing| || !p.status then p
    else
      var file := listing[j];
      if file.isDeleted || file.name in p.localNotes then PullDown(p, listing, j + 1, oracle)
      else
        var e := CreateLocalNote(p.stores, file, oracle);
        if e.fault.Some? then p.(stores := e.stores, status := false, message := Some(CoarseMessage(e.fault.value)))
        else PullDown(p.(stores := e.stores), listing, j + 1, oracle)
  }

  /** The answer to the listing of "/": its children, or the exception. */
  datatype Listing = Listed(entries: seq<Entry>) | ListFailed(failure: Failure)

  function Start(s: Stores): Progress
  {
    Progress(s, true, None, 0, [], [])
  }

  /** The whole of doInBackground; the result's status is its return value. */
  function Sync(s: Stores, listing: Listing, cursor: Option<seq<Row>>, oracle: Oracle, cancelAt: Option<nat>): (r: Progress)
    ensures listing.ListFailed? ==> r == Start(s).(status := false, message := Some(CoarseMessage(listing.failure)))
    ensures listing.Listed? && cursor.None? ==> r == Start(s).(status := false, message := Some(NoCursorMessage))
    ensures listing.Listed? && cursor.Some? ==>
      var loop := Loop(Start(s), cursor.value, 0, |cursor.value|, Index(listing.entries), oracle, cancelAt);
      (!loop.status ==> r == loop) && (loop.status ==> r.localNotes == loop.localNotes && r.pos == loop.pos)
    ensures listing.Listed? && cursor.Some? ==>
      var loop := Loop(Start(s), cursor.value, 0, |cursor.value|, Index(listing.entries), oracle, cancelAt);
      loop.status ==> r == PullDown(loop, listing.entries, 0, oracle)
    ensures r.status ==> r.message == None
  {
    match listing
    case ListFailed(f) => Start(s).(status := false, message := Some(CoarseMessage(f)))
    case Listed(entries) =>
      if cursor.None? then Start(s).(status := false, message := Some(NoCursorMessage))
      else
        var p := Loop(Start(s), cursor.value, 0, |cursor.value|, Index(entries), oracle, cancelAt);
        if !p.status then p
        else
          LoopKeepsMessage(Start(s), cursor.value, 0, |cursor.value|, Index(entries), oracle, cancelAt);
          PullDownPreserves(p, entries, 0, oracle);
          PullDown(p, entries, 0, oracle)
  }

  /** The download loop leaves localNotes and pos alone, and a run that
      keeps its status never set a message. */
  lemma {:induction false} PullDownPreserves(p: Progress, listing: seq<Entry>, j: nat, oracle: Oracle)
    requires j <= |listing|
    ensures var q := PullDown(p, listing, j, oracle);
      q.localNotes == p.localNotes && q.pos == p.pos && (q.status ==> q.message == p.message)
    decreases |listing| - j
  {
    if j < |listing| && p.status {
      var file := listing[j];
      if file.isDeleted || file.name in p.localNotes {
        PullDownPreserves(p, listing, j + 1, oracle);
      } else {
        var e := CreateLocalNote(p.stores, file, oracle);
        if e.fault.None? {
          PullDownPreserves(p.(stores := e.stores), listing, j + 1, oracle);
        }
      }
    }
  }

  /** A walk that keeps its status never set a message. */
  lemma {:induction false} LoopWithKeepsMessage(p: Progress, rows: seq<Row>, i: nat, end: nat, step: Step)
    requires i <= end <= |rows| && StepKeepsBooks(step, |rows|)
    ensures var q := LoopWith(p, rows, i, end, step);
      q.status ==> q.message == p.message
    decreases end - i
  {
    if i < end && p.status {
      assert KeepsBooks(p, rows[i], |rows|, step(p, i, rows[i]));
      LoopWithKeepsMessage(step(p, i, rows[i]), rows, i + 1, end, step);
    }
  }

  lemma LoopKeepsMessage(p: Progress, rows: seq<Row>, i: nat, end: nat, index: map<string, Entry>,
                         oracle: Oracle, cancelAt: Option<nat>)
    requires i <= end <= |rows|
    ensures var q := Loop(p, rows, i, end, index, oracle, cancelAt);
      q.status ==> q.message == p.message
  {
    RowStepKeepsBooks(|rows|, index, oracle, cancelAt);
    LoopWithKeepsMessage(p, rows, i, end, RowStep(|rows|, index, oracle, cancelAt));
  }

  ghost predicate PercentValues(published: seq<int>)
  {
    forall k :: 0 <= k < |published| ==> 0 <= published[k] <= 100
  }

  /** The percentages published for progress moving from `from` rows to
      `to` rows. */
  function Percents(from: nat, to: nat, count: int): (r: seq<int>)
    ensures |r| == (if from <= to then to - from else 0)
    decreases if from <= to then to - from else 0
  {
    if from >= to then [] else [Percent(from + 1, count)] + Percents(from + 1, to, count)
  }

  lemma {:induction false} PercentsInRange(from: nat, to: nat, count: int)
    requires to <= count
    ensures PercentValues(Percents(from, to, count))
    decreases if from <= to then to - from else 0
  {
    if from < to {
      PercentsInRange(from + 1, to, count);
      assert 0 <= Percent(from + 1, count) <= 100;
    }
  }

  /** The walk publishes one percentage per row that counts, in order. */
  lemma {:induction false} LoopWithPublishes(p: Progress, rows: seq<Row>, i: nat, end: nat, step: Step)
    requires i <= end <= |rows| && StepKeepsBooks(step, |rows|)
    ensures var q := LoopWith(p, rows, i, end, step);
      p.pos <= q.pos <= p.pos + (end - i) && q.published == p.published + Percents(p.pos, q.pos, |rows|)
    decreases end - i
  {
    var q := LoopWith(p, rows, i, end, step);
    if i < end && p.status {
      var p' := step(p, i, rows[i]);
      assert KeepsBooks(p, rows[i], |rows|, p');
      LoopWithPublishes(p', rows, i + 1, end, step);
      if p'.pos == p.pos + 1 {
        assert Percents(p.pos, q.pos, |rows|) == [Percent(p.pos + 1, |rows|)] + Percents(p'.pos, q.pos, |rows|);
        assert q.published == p.published + [Percent(p.pos + 1, |rows|)] + Percents(p'.pos, q.pos, |rows|);
      }
    } else {
      assert Percents(p.pos, q.pos, |rows|) == [];
    }
  }

  /** Progress never passes the rows walked, one percentage is published
      per counted row, and every percentage is within 0..100. */
  lemma LoopWithProgress(p: Progress, rows: seq<Row>, i: nat, end: nat, step: Step)
    requires i <= end <= |rows| && StepKeepsBooks(step, |rows|) && p.pos <= i && PercentValues(p.published)
    ensures var q := LoopWith(p, rows, i, end, step);
      p.pos <= q.pos <= end && PercentValues(q.published) &&
      |q.published| - |p.published| == q.pos - p.pos
  {
    var q := LoopWith(p, rows, i, end, step);
    LoopWithPublishes(p, rows, i, end, step);
    var added := Percents(p.pos, q.pos, |rows|);
    PercentsInRange(p.pos, q.pos, |rows|);
    assert forall k :: 0 <= k < |q.published| ==>
      q.published[k] == if k < |p.published| then p.published[k] else added[k - |p.published|];
  }

  lemma LoopProgress(p: Progress, rows: seq<Row>, i: nat, end: nat, index: map<string, Entry>,
                     oracle: Oracle, cancelAt: Option<nat>)
    requires i <= end <= |rows| && p.pos <= i && PercentValues(p.published)
    ensures var q := Loop(p, rows, i, end, index, oracle, cancelAt);
      p.pos <= q.pos <= end && PercentValues(q.published) &&
      |q.published| - |p.published| == q.pos - p.pos
  {
    RowStepKeepsBooks(|rows|, index, oracle, cancelAt);
    LoopWithProgress(p, rows, i, end, RowStep(|rows|, index, oracle, cancelAt));
  }

  /** Cancellation observed at row k: rows before k are processed as if
      the loop ended there, rows from k on are untouched, the run fails,
      and the message is "Canceled" unless an earlier row already failed. */
  lemma {:induction false} CancelStops(p: Progress, rows: seq<Row>, i: nat, k: nat, index: map<string, Entry>,
                                       oracle: Oracle)
    requires i <= k < |rows|
    ensures var q := Loop(p, rows, i, k, index, oracle, Some(k));
      Loop(p, rows, i, |rows|, index, oracle, Some(k)) ==
      (if q.status then q.(status := false, message := Some(CanceledMessage)) else q)
    decreases k - i
  {
    if i < k && p.status {
      var p' := NoteStep(p, i, rows[i], |rows|, index, oracle, Some(k));
      LoopUnfolds(p, rows, i, k, index, oracle, Some(k));
      LoopUnfolds(p, rows, i, |rows|, index, oracle, Some(k));
      CancelStops(p', rows, i + 1, k, index, oracle);
    } else if p.status {
      LoopStops(p, rows, i, k, index, oracle, Some(k));
      LoopUnfolds(p, rows, k, |rows|, index, oracle, Some(k));
      LoopStops(p.(status := false, message := Some(CanceledMessage)), rows, k + 1, |rows|, index, oracle, Some(k));
    } else {
      LoopStops(p, rows, i, k, index, oracle, Some(k));
      LoopStops(p, rows, i, |rows|, index, oracle, Some(k));
    }
  }

  /** localNotes after rows i up to end have each added their name. */
  function NamesOf(notes: seq<string>, rows: seq<Row>, i: nat, end: nat): seq<string>
    requires i <= end <= |rows|
    decreases end - i
  {
    if i == end then notes else NamesOf(Remember(notes, rows[i]), rows, i + 1, end)
  }

  /** The names gathered keep every earlier name and hold the non-blank
      name of every row walked. */
  lemma {:induction false} NamesOfContains(notes: seq<string>, rows: seq<Row>, i: nat, end: nat)
    requires i <= end <= |rows|
    ensures forall x :: x in notes ==> x in NamesOf(notes, rows, i, end)
    ensures forall j :: i <= j < end && KnownName(rows[j].note.fileName).Some? ==>
                        KnownName(rows[j].note.fileName).value in NamesOf(notes, rows, i, end)
    decreases end - i
  {
    if i < end {
      var next := Remember(notes, rows[i]);
      NamesOfContains(next, rows, i + 1, end);
      assert forall x :: x in notes ==> x in next;
      var name := KnownName(rows[i].note.fileName);
      if name.Some? {
        assert next[|next| - 1] == name.value;
      }
    }
  }

  /** A walk that keeps its status has remembered, in row order, the
      non-blank file name of every row, deleted rows included. */
  lemma {:induction false} LoopWithRemembersNames(p: Progress, rows: seq<Row>, i: nat, end: nat, step: Step)
    requires i <= end <= |rows| && StepKeepsBooks(step, |rows|)
    ensures var q := LoopWith(p, rows, i, end, step);
      q.status ==> q.localNotes == NamesOf(p.localNotes, rows, i, end)
    decreases end - i
  {
    if i < end && p.status {
      assert KeepsBooks(p, rows[i], |rows|, step(p, i, rows[i]));
      LoopWithRemembersNames(step(p, i, rows[i]), rows, i + 1, end, step);
    }
  }

  lemma LoopRemembersNames(p: Progress, rows: seq<Row>, i: nat, end: nat, index: map<string, Entry>,
                           oracle: Oracle, cancelAt: Option<nat>)
    requires i <= end <= |rows|
    ensures var q := Loop(p, rows, i, end, index, oracle, cancelAt);
      q.status ==> q.localNotes == NamesOf(p.localNotes, rows, i, end)
  {
    RowStepKeepsBooks(|rows|, index, oracle, cancelAt);
    LoopWithRemembersNames(p, rows, i, end, RowStep(|rows|, index, oracle, cancelAt));
  }

  /** The listing entries the download loop materialises: live ones whose
      name is not in localNotes, in listing order. */
  function Wanted(listing: seq<Entry>, localNotes: seq<string>): (w: seq<Entry>)
    ensures forall k :: 0 <= k < |w| ==> !w[k].isDeleted && w[k].name !in localNotes
    ensures forall k :: 0 <= k < |w| ==> w[k] in listing
    ensures forall i :: 0 <= i < |listing| && !listing[i].isDeleted && listing[i].name !in localNotes ==>
      listing[i] in w
  {
    if listing == [] then []
    else
      var first := listing[0];
      (if first.isDeleted || first.name in localNotes then [] else [first]) + Wanted(listing[1..], localNotes)
  }

  /** One download of "/" + name per entry, in order. */
  function Fetches(files: seq<Entry>): (r: seq<Call>)
    ensures |r| == |files|
  {
    if files == [] then [] else [FetchPath(Path(files[0].name))] + Fetches(files[1..])
  }

  /** `after` keeps every row of `before` and its remote files. */
  ghost predicate KeepsRows(before: Stores, after: Stores)
  {
    Valid(after) && after.files == before.files &&
    forall id :: id in before.db ==> id in after.db && after.db[id] == before.db[id]
  }

  /** `after` holds one new row per entry of w, with ids from before's next
      id on, and one download per entry. */
  ghost predicate AddsRows(before: Stores, after: Stores, w: seq<Entry>, oracle: Oracle)
  {
    after.nextId == before.nextId + |w| &&
    after.trace == before.trace + Fetches(w) &&
    (forall id :: id in after.db ==> id in before.db || before.nextId <= id < after.nextId) &&
    (forall k :: 0 <= k < |w| ==> AddedRow(before, after, w, k, oracle))
  }

  /** Entry k of w was found in the folder and became the row with id
      before.nextId + k: the file's title, body and time under its name
      when the download (the k-th call from `before` on) could be read to
      the end, and a blank row when the stream broke off. */
  ghost predicate AddedRow(before: Stores, after: Stores, w: seq<Entry>, k: int, oracle: Oracle)
    requires 0 <= k < |w|
  {
    var id := before.nextId + k;
    var path := Path(w[k].name);
    id in after.db && path in before.files &&
    after.db[id] == if oracle(|before.trace| + k).readable
                    then PulledNote(BlankNote, w[k], w[k].modified, before.files[path].content)
                    else BlankNote
  }

  lemma {:induction false} FetchesAppend(a: seq<Entry>, b: seq<Entry>)
    ensures Fetches(a + b) == Fetches(a) + Fetches(b)
    decreases |a|
  {
    if a != [] {
      assert (a + b)[1..] == a[1..] + b;
      FetchesAppend(a[1..], b);
    } else {
      assert a + b == b;
    }
  }

  lemma AddsRowsCompose(a: Stores, b: Stores, c: Stores, w1: seq<Entry>, w2: seq<Entry>, oracle: Oracle)
    requires Valid(a) && AddsRows(a, b, w1, oracle) && AddsRows(b, c, w2, oracle) && KeepsRows(b, c) && b.files == a.files
    ensures AddsRows(a, c, w1 + w2, oracle)
  {
    var w := w1 + w2;
    assert c.trace == a.trace + Fetches(w) by {
      FetchesAppend(w1, w2);
      assert c.trace == (a.trace + Fetches(w1)) + Fetches(w2);
    }
    forall k | 0 <= k < |w|
      ensures AddedRow(a, c, w, k, oracle)
    {
      if k >= |w1| {
        var k' := k - |w1|;
        assert AddedRow(b, c, w2, k', oracle);
        assert b.nextId + k' == a.nextId + k && |b.trace| + k' == |a.trace| + k && w[k] == w2[k'];
      } else {
        assert AddedRow(a, b, w1, k, oracle);
        assert w[k] == w1[k] && c.db[a.nextId + k] == b.db[a.nextId + k];
      }
    }
  }

  /** The download loop only adds rows: it keeps every existing row, the
      remote files, localNotes and pos. */
  lemma {:induction false} PullDownKeeps(p: Progress, listing: seq<Entry>, j: nat, oracle: Oracle)
    requires j <= |listing| && Valid(p.stores)
    ensures var q := PullDown(p, listing, j, oracle);
      KeepsRows(p.stores, q.stores) && q.localNotes == p.localNotes && q.pos == p.pos
    decreases |listing| - j
  {
    if j < |listing| && p.status {
      var file := listing[j];
      if !(file.isDeleted || file.name in p.localNotes) {
        CreateLocalNoteRow(p.stores, file, oracle);
        var e := CreateLocalNote(p.stores, file, oracle);
        if e.fault.None? {
          PullDownKeeps(p.(stores := e.stores), listing, j + 1, oracle);
        }
      } else {
        PullDownKeeps(p, listing, j + 1, oracle);
      }
    }
  }

  /** One created note whose download went through is one added row and
      one download. */
  lemma CreatedRowAdds(s: Stores, file: Entry, oracle: Oracle)
    requires Valid(s)
    ensures var e := CreateLocalNote(s, file, oracle);
      Valid(e.stores) && e.stores.files == s.files &&
      (e.fault.None? ==> AddsRows(s, e.stores, [file], oracle))
  {
    CreateLocalNoteRow(s, file, oracle);
    var e := CreateLocalNote(s, file, oracle);
    assert Fetches([file]) == [FetchPath(Path(file.name))];
    if e.fault.None? {
      assert AddedRow(s, e.stores, [file], 0, oracle);
    }
  }

  /** Pull-down completeness: when the download loop finishes, each wanted
      entry has become exactly one new row holding that file's note, with
      the next free ids in listing order, one download per entry. */
  lemma {:induction false} PullDownCreates(p: Progress, listing: seq<Entry>, j: nat, oracle: Oracle)
    requires j <= |listing| && Valid(p.stores)
    requires p.status && PullDown(p, listing, j, oracle).status
    ensures AddsRows(p.stores, PullDown(p, listing, j, oracle).stores, Wanted(listing[j..], p.localNotes), oracle)
    decreases |listing| - j
  {
    var w := Wanted(listing[j..], p.localNotes);
    if j == |listing| {
      assert w == [];
    } else {
      var file := listing[j];
      assert listing[j..][0] == file && listing[j..][1..] == listing[j + 1..];
      var rest := Wanted(listing[j + 1..], p.localNotes);
      if file.isDeleted || file.name in p.localNotes {
        assert w == rest;
        PullDownCreates(p, listing, j + 1, oracle);
      } else {
        assert w == [file] + rest;
        var e := CreateLocalNote(p.stores, file, oracle);
        CreatedRowAdds(p.stores, file, oracle);
        var p' := p.(stores := e.stores);
        PullDownCreates(p', listing, j + 1, oracle);
        PullDownKeeps(p', listing, j + 1, oracle);
        AddsRowsCompose(p.stores, e.stores, PullDown(p', listing, j + 1, oracle).stores, [file], rest, oracle);
      }
    }
  }

  /** Deleting locally is not undone by the download loop: after a run
      whose row loop finished, no downloaded entry carries the non-blank
      file name of any cursor row, deleted rows included. */
  lemma NamedRowsNotDownloaded(s: Stores, entries: seq<Entry>, rows: seq<Row>, oracle: Oracle, cancelAt: Option<nat>)
    ensures var loop := Loop(Start(s), rows, 0, |rows|, Index(entries), oracle, cancelAt);
      loop.status ==>
        forall k, r :: 0 <= k < |Wanted(entries, loop.localNotes)| && r in rows && KnownName(r.note.fileName).Some? ==>
          KnownName(r.note.fileName).value != Wanted(entries, loop.localNotes)[k].name
  {
    LoopRemembersNames(Start(s), rows, 0, |rows|, Index(entries), oracle, cancelAt);
    NamesOfContains([], rows, 0, |rows|);
    var loop := Loop(Start(s), rows, 0, |rows|, Index(entries), oracle, cancelAt);
    forall r | r in rows && KnownName(r.note.fileName).Some?
      ensures KnownName(r.note.fileName).value in loop.localNotes || !loop.status
    {
      var j :| 0 <= j < |rows| && rows[j] == r;
    }
  }

  /** A walk never adds a local row, so every id stays below the next. */
  lemma {:induction false} LoopWithKeepsValid(p: Progress, rows: seq<Row>, i: nat, end: nat, step: Step)
    requires i <= end <= |rows| && StepKeepsBooks(step, |rows|) && Valid(p.stores)
    ensures Valid(LoopWith(p, rows, i, end, step).stores)
    decreases end - i
  {
    if i < end && p.status {
      assert KeepsBooks(p, rows[i], |rows|, step(p, i, rows[i]));
      LoopWithKeepsValid(step(p, i, rows[i]), rows, i + 1, end, step);
    }
  }

  /** A successful run: the walk over the cursor finished, having
      remembered every row's name, and the download loop then added one
      row per wanted entry of the listing (live, and named by no cursor
      row, deleted rows included), keeping every row the walk left. */
  lemma SyncDownloadsWanted(s: Stores, entries: seq<Entry>, rows: seq<Row>, oracle: Oracle, cancelAt: Option<nat>)
    requires Valid(s)
    ensures var loop := Loop(Start(s), rows, 0, |rows|, Index(entries), oracle, cancelAt);
      var r := Sync(s, Listed(entries), Some(rows), oracle, cancelAt);
      var w := Wanted(entries, loop.localNotes);
      r.status ==>
        loop.status && loop.localNotes == NamesOf([], rows, 0, |rows|) &&
        KeepsRows(loop.stores, r.stores) && AddsRows(loop.stores, r.stores, w, oracle) &&
        (forall k, row :: 0 <= k < |w| && row in rows && KnownName(row.note.fileName).Some? ==>
           KnownName(row.note.fileName).value != w[k].name)
  {
    var loop := Loop(Start(s), rows, 0, |rows|, Index(entries), oracle, cancelAt);
    if Sync(s, Listed(entries), Some(rows), oracle, cancelAt).status {
      RowStepKeepsBooks(|rows|, Index(entries), oracle, cancelAt);
      LoopWithKeepsValid(Start(s), rows, 0, |rows|, RowStep(|rows|, Index(entries), oracle, cancelAt));
      LoopRemembersNames(Start(s), rows, 0, |rows|, Index(entries), oracle, cancelAt);
      NamedRowsNotDownloaded(s, entries, rows, oracle, cancelAt);
      PullDownKeeps(loop, entries, 0, oracle);
      PullDownCreates(loop, entries, 0, oracle);
      assert entries[0..] == entries;
    }
  }
}

=== FILE: stores.dfy ===
/** The two stores the engine works on — the local notes table behind the
    content resolver and the remote Dropbox folder — and the helper
    operations of SyncWithDropbox as functions on them. The remote service
    answers each call as an oracle says: the n-th remote call gets reply n. */
module Storage {
  import opened Wrappers
  import opened NoteContent
  import opened NoteNames
  import opened Dropbox

  /** A row of the notes table, with the columns the engine reads. */
  datatype Note = Note(
    title: Option<string>,
    body: Option<string>,
    modified: int,
    deleted: int,
    fileName: Option<string>)

  /** A cursor row: the note id and the note as the query returned it. */
  datatype Row = Row(id: int, note: Note)

  /** The row a bare insert into the notes table creates; the provider's
      own defaults are not part of this model. */
  const BlankNote := Note(None, None, 0, 0, None)

  /** The local table (with the id the next insert gets), the remote files
      by path, and the remote calls issued so far. */
  datatype Stores = Stores(
    db: map<int, Note>,
    nextId: int,
    files: map<string, RemoteFile>,
    trace: seq<Call>)

  /** What the remote service answers, call by call. */
  type Oracle = nat -> Reply

  /** The state after an operation, and the exception it threw, if any. */
  datatype Effect = Effect(stores: Stores, fault: Option<Failure>)

  /** Every local id is below the id the next insert gets. */
  ghost predicate Valid(s: Stores)
  {
    forall id :: id in s.db ==> id < s.nextId
  }

  function NextReply(s: Stores, oracle: Oracle): Reply
  {
    oracle(|s.trace|)
  }

  const NotFound := Server(NotFoundCode, None, None)

  /** ContentResolver.delete on the row's uri. */
  function DeleteLocalNote(s: Stores, id: int): Stores
  {
    s.(db := s.db - {id})
  }

  /** deleteDropboxNote: delete "/" + fileName; a path that is not there
      is answered with 404. */
  function DeleteDropboxNote(s: Stores, fileName: string, oracle: Oracle): (e: Effect)
    ensures e.stores.trace == s.trace + [DeletePath(Path(fileName))]
    ensures e.stores.db == s.db && e.stores.nextId == s.nextId
    ensures e.fault.None? ==> e.stores.files == s.files - {Path(fileName)}
    ensures e.fault.Some? ==> e.stores.files == s.files
    ensures NextReply(s, oracle).fault.None? && Path(fileName) !in s.files ==> e.fault == Some(NotFound)
  {
    var reply := NextReply(s, oracle);
    var t := s.(trace := s.trace + [DeletePath(Path(fileName))]);
    if reply.fault.Some? then Effect(t, reply.fault)
    else if Path(fileName) !in s.files then Effect(t, Some(NotFound))
    else Effect(t.(files := s.files - {Path(fileName)}), None)
  }

  /** The note a download writes into an existing row: title and body
      from the content, the given time, and the file's name. */
  function PulledNote(n: Note, file: Entry, time: int, content: string): Note
  {
    var d := Decode(content);
    n.(title := d.title, body := Some(d.body), modified := time, fileName := Some(file.name))
  }

  /** updateLocalNote: download file.path, read title and body, and update
      the row (an update of a row that is gone changes nothing). A stream
      that breaks while it is read leaves the row as it was, and no
      exception escapes. */
  function UpdateLocalNote(s: Stores, id: int, file: Entry, time: int, oracle: Oracle): (e: Effect)
    ensures e.stores.trace == s.trace + [FetchPath(Path(file.name))]
    ensures e.stores.files == s.files && e.stores.nextId == s.nextId
    ensures e.fault.Some? || !NextReply(s, oracle).readable || id !in s.db ==> e.stores.db == s.db
    ensures e.fault.None? <==> NextReply(s, oracle).fault.None? && Path(file.name) in s.files
    ensures NextReply(s, oracle).fault.None? && Path(file.name) !in s.files ==> e.fault == Some(NotFound)
    ensures e.fault.None? && NextReply(s, oracle).readable && id in s.db ==>
      e.stores.db == s.db[id := PulledNote(s.db[id], file, time, s.files[Path(file.name)].content)]
  {
    var reply := NextReply(s, oracle);
    var t := s.(trace := s.trace + [FetchPath(Path(file.name))]);
    if reply.fault.Some? then Effect(t, reply.fault)
    else if Path(file.name) !in s.files then Effect(t, Some(NotFound))
    else if !reply.readable || id !in s.db then Effect(t, None)
    else
      var n := PulledNote(s.db[id], file, time, s.files[Path(file.name)].content);
      Effect(t.(db := s.db[id := n]), None)
  }

  /** updateNoteModificationTimeAndFileName. */
  function StampNote(db: map<int, Note>, id: int, time: int, fileName: string): (r: map<int, Note>)
    ensures r.Keys == db.Keys
  {
    if id in db then db[id := db[id].(modified := time, fileName := Some(fileName))] else db
  }

  /** insertDropboxNote(uri, path, title, noteContent): upload
      title + "\n" + body over whatever is at the path, then record the
      returned entry's time and name in the row. */
  function InsertDropboxNote(s: Stores, id: int, fileName: string, title: Option<string>, body: Option<string>, oracle: Oracle): (e: Effect)
    ensures e.stores.trace == s.trace + [PutPath(Path(fileName), Encode(title, body))]
    ensures e.stores.nextId == s.nextId
    ensures e.fault == NextReply(s, oracle).fault
    ensures e.fault.Some? ==> e.stores.files == s.files && e.stores.db == s.db
    ensures e.fault.None? ==>
      e.stores.files == s.files[Path(fileName) := RemoteFile(NextReply(s, oracle).stamp, Encode(title, body))]
    ensures e.fault.None? ==> e.stores.db == StampNote(s.db, id, NextReply(s, oracle).stamp, fileName)
  {
    var reply := NextReply(s, oracle);
    var content := Encode(title, body);
    var t := s.(trace := s.trace + [PutPath(Path(fileName), content)]);
    if reply.fault.Some? then Effect(t, reply.fault)
    else
      Effect(t.(files := s.files[Path(fileName) := RemoteFile(reply.stamp, content)],
                db := StampNote(s.db, id, reply.stamp, fileName)), None)
  }

  /** insertDropboxNote(uri, noteId, ...): the same upload under the first
      free "Note<k>.txt" name with k counting up from the note id. */
  function InsertNewDropboxNote(s: Stores, id: int, noteId: int, title: Option<string>, body: Option<string>,
                                names: set<string>, oracle: Oracle): Effect
  {
    InsertDropboxNote(s, id, NoteFileName(FreeIndex(names, noteId)), title, body, oracle)
  }

  /** createLocalNote: insert a blank row, then fill it from the file with
      the file's own modification time. */
  function CreateLocalNote(s: Stores, file: Entry, oracle: Oracle): (e: Effect)
    ensures e.stores.nextId == s.nextId + 1
    ensures e.stores.files == s.files
    ensures e.stores.trace == s.trace + [FetchPath(Path(file.name))]
  {
    var inserted := s.(db := s.db[s.nextId := BlankNote], nextId := s.nextId + 1);
    UpdateLocalNote(inserted, s.nextId, file, file.modified, oracle)
  }

  /** A created row holds the remote note when the download went through,
      a blank note when the stream broke, and either way no other row
      changes; a failed download leaves the blank row behind. */
  lemma CreateLocalNoteRow(s: Stores, file: Entry, oracle: Oracle)
    requires Valid(s)
    ensures var e := CreateLocalNote(s, file, oracle);
      Valid(e.stores) &&
      e.stores.db.Keys == s.db.Keys + {s.nextId} &&
      (forall id :: id in s.db ==> e.stores.db[id] == s.db[id]) &&
      (e.fault.None? && NextReply(s, oracle).readable ==>
        e.stores.db[s.nextId] == PulledNote(BlankNote, file, file.modified, s.files[Path(file.name)].content)) &&
      (e.fault.Some? || !NextReply(s, oracle).readable ==> e.stores.db[s.nextId] == BlankNote)
  {
  }
}

=== FILE: sync.dfy ===
/** The SyncWithDropbox task: its fields, the Dropbox calls it makes (as an
    abstract remote store answering from an oracle), its helper methods,
    and doInBackground with its two loops, each proved to compute the
    functions of the SyncRun module. */
module SyncTask {
  import opened Wrappers
  import opened NoteContent
  import opened NoteNames
  import opened Dropbox
  import opened Storage
  import opened Reconcile
  import opened SyncRun

  class SyncWithDropbox {
    // The notes table behind the content resolver, and the id its next
    // insert receives.
    var db: map<int, Note>
    var nextId: int
    // The remote folder, by path, and the remote calls issued so far.
    var files: map<string, RemoteFile>
    var trace: seq<Call>
    // How the remote service answers, and the first loop iteration that
    // sees the Cancel button's flag.
    const oracle: Oracle
    const cancelAt: Option<nat>

    // The task's own state: mErrorMsg, localNotes, and doInBackground's
    // status, pos and the progress values it published.
    var errorMsg: Option<string>
    var localNotes: seq<string>
    var status: bool
    var pos: nat
    var published: seq<int>

    function World(): Stores
      reads this
    {
      Stores(db, nextId, files, trace)
    }

    function State(): Progress
      reads this
    {
      Progress(World(), status, errorMsg, pos, localNotes, published)
    }

    constructor (db: map<int, Note>, nextId: int, files: map<string, RemoteFile>, oracle: Oracle, cancelAt: Option<nat>)
      ensures State() == Start(Stores(db, nextId, files, []))
      ensures this.oracle == oracle && this.cancelAt == cancelAt
    {
      this.db := db;
      this.nextId := nextId;
      this.files := files;
      this.trace := [];
      this.oracle := oracle;
      this.cancelAt := cancelAt;
      this.errorMsg := None;
      this.localNotes := [];
      this.status := true;
      this.pos := 0;
      this.published := [];
    }

    /** DropboxAPI.delete: removes the file, or fails as the oracle says;
        a path that is not there fails with 404. */
    method ApiDelete(path: string) returns (fault: Option<Failure>)
      modifies this`files, this`trace
      ensures trace == old(trace) + [DeletePath(path)]
      ensures var reply := oracle(|old(trace)|);
        fault == (if reply.fault.Some? then reply.fault else if path !in old(files) then Some(NotFound) else None)
      ensures files == if fault.None? then old(files) - {path} else old(files)
    {
      var reply := oracle(|trace|);
      trace := trace + [DeletePath(path)];
      if reply.fault.Some? {
        fault := reply.fault;
      } else if path !in files {
        fault := Some(NotFound);
      } else {
        files := files - {path};
        fault := None;
      }
    }

    /** DropboxAPI.getFileStream: the file's content, whether reading it
        goes through, or the failure. */
    method ApiGetFileStream(path: string) returns (stream: string, readable: bool, fault: Option<Failure>)
      modifies this`trace
      ensures trace == old(trace) + [FetchPath(path)]
      ensures var reply := oracle(|old(trace)|);
        fault == (if reply.fault.Some? then reply.fault else if path !in files then Some(NotFound) else None) &&
        readable == reply.readable
      ensures fault.None? ==> stream == files[path].content
    {
      var reply := oracle(|trace|);
      trace := trace + [FetchPath(path)];
      readable := reply.readable;
      stream := "";
      if reply.fault.Some? {
        fault := reply.fault;
      } else if path !in files {
        fault := Some(NotFound);
      } else {
        stream := files[path].content;
        fault := None;
      }
    }

    /** DropboxAPI.putFileOverwrite: stores the content under the path with
        the server's time and returns that time, or fails. */
    method ApiPutFileOverwrite(path: string, content: string) returns (modified: int, fault: Option<Failure>)
      modifies this`files, this`trace
      ensures trace == old(trace) + [PutPath(path, content)]
      ensures fault == oracle(|old(trace)|).fault && modified == oracle(|old(trace)|).stamp
      ensures files == if fault.None? then old(files)[path := RemoteFile(modified, content)] else old(files)
    {
      var reply := oracle(|trace|);
      trace := trace + [PutPath(path, content)];
      fault := reply.fault;
      modified := reply.stamp;
      if fault.None? {
        files := files[path := RemoteFile(modified, content)];
      }
    }

    method DeleteDropboxNote(fileName: string) returns (fault: Option<Failure>)
      modifies this`files, this`trace
      ensures Effect(World(), fault) == Storage.DeleteDropboxNote(old(World()), fileName, oracle)
    {
      fault := ApiDelete(Path(fileName));
    }

    /** The content resolver's delete of one row. */
    method DeleteLocalNote(id: int)
      modifies this`db
      ensures World() == Storage.DeleteLocalNote(old(World()), id)
    {
      db := db - {id};
    }

    method UpdateLocalNote(id: int, file: Entry, time: int) returns (fault: Option<Failure>)
      modifies this`db, this`trace
      ensures Effect(World(), fault) == Storage.UpdateLocalNote(old(World()), id, file, time, oracle)
    {
      var stream, readable;
      stream, readable, fault := ApiGetFileStream(Path(file.name));
      if fault.Some? {
        return;
      }
      if readable {
        var d := ReadNote(stream);
        if id in db {
          db := db[id := db[id].(title := d.title, body := Some(d.body), modified := time, fileName := Some(file.name))];
        }
      }
    }

    method UpdateNoteModificationTimeAndFileName(id: int, time: int, fileName: string)
      modifies this`db
      ensures db == StampNote(old(db), id, time, fileName)
    {
      if id in db {
        db := db[id := db[id].(modified := time, fileName := Some(fileName))];
      }
    }

    /** insertDropboxNote(uri, path, title, noteContent), with the path
        given as the file's name. */
    method InsertDropboxNoteAt(id: int, fileName: string, title: Option<string>, body: Option<string>)
      returns (fault: Option<Failure>)
      modifies this`db, this`files, this`trace
      ensures Effect(World(), fault) == Storage.InsertDropboxNote(old(World()), id, fileName, title, body, oracle)
    {
      var dropboxContent := Encode(title, body);
      var modified;
      modified, fault := ApiPutFileOverwrite(Path(fileName), dropboxContent);
      if fault.None? {
        UpdateNoteModificationTimeAndFileName(id, modified, fileName);
      }
    }

    /** insertDropboxNote(uri, noteId, title, noteContent, remoteFiles). */
    method InsertDropboxNote(id: int, noteId: int, title: Option<string>, body: Option<string>,
                             remoteFiles: map<string, Entry>) returns (fault: Option<Failure>)
      modifies this`db, this`files, this`trace
      ensures Effect(World(), fault) ==
              InsertNewDropboxNote(old(World()), id, noteId, title, body, remoteFiles.Keys, oracle)
    {
      var fileName := FindFreeName(remoteFiles.Keys, noteId);
      fault := InsertDropboxNoteAt(id, fileName, title, body);
    }

    method CreateLocalNote(file: Entry) returns (fault: Option<Failure>)
      modifies this`db, this`nextId, this`trace
      ensures Effect(World(), fault) == Storage.CreateLocalNote(old(World()), file, oracle)
    {
      var id := nextId;
      db := db[id := BlankNote];
      nextId := nextId + 1;
      fault := UpdateLocalNote(id, file, file.modified);
    }

    /** The try block of the cursor loop and its exception handlers, for
        one row. */
    method ProcessNote(row: Row, remoteFiles: map<string, Entry>) returns (outcome: RowOutcome)
      modifies this`db, this`files, this`trace
      ensures RowResult(World(), outcome) == ProcessRow(old(World()), row, remoteFiles, oracle)
    {
      var fault: Option<Failure> := None;
      var fileName := KnownName(row.note.fileName);
      var title, noteContent := row.note.title, row.note.body;
      if row.note.deleted == 1 {
        if fileName.Some? {
          fault := DeleteDropboxNote(fileName.value);
        }
        if fault.None? {
          DeleteLocalNote(row.id);
          return Continue;
        }
      } else if fileName.Some? {
        if fileName.value in remoteFiles {
          var file := remoteFiles[fileName.value];
          if file.modified > row.note.modified {
            fault := UpdateLocalNote(row.id, file, file.modified);
          } else if file.modified < row.note.modified {
            fault := InsertDropboxNoteAt(row.id, file.name, title, noteContent);
          } else {
            return Continue;
          }
        }
        // else: the file is gone from the listing; only a warning is shown
      } else {
        fault := InsertDropboxNote(row.id, row.id, title, noteContent, remoteFiles);
      }
      if fault.None? {
        return Advance;
      }
      var f := fault.value;
      if IsNotFound(f) {
        if row.note.deleted == 0 {
          var retry := InsertDropboxNote(row.id, row.id, title, noteContent, remoteFiles);
          if retry.Some? {
            return Abort(Some(CoarseMessage(retry.value)));
          }
        } else {
          DeleteLocalNote(row.id);
        }
        return Advance;
      }
      return Abort(RowMessage(f));
    }

    /** One pass of the cursor loop: the cancellation check, remembering
        the file name, the try block, and the progress update. */
    method NoteIteration(i: nat, row: Row, count: int, remoteFiles: map<string, Entry>)
      modifies this`db, this`files, this`trace, this`errorMsg, this`localNotes, this`status, this`pos, this`published
      ensures State() == NoteStep(old(State()), i, row, count, remoteFiles, oracle, cancelAt)
    {
      if Canceled(cancelAt, i) {
        status := false;
        errorMsg := Some(CanceledMessage);
        return;
      }
      ghost var r := ProcessRow(World(), row, remoteFiles, oracle);
      localNotes := Remember(localNotes, row);
      var outcome := ProcessNote(row, remoteFiles);
      assert World() == r.stores && outcome == r.outcome;
      if outcome.Continue? {
        return;
      }
      if outcome.Abort? {
        errorMsg := outcome.message;
        status := false;
        return;
      }
      pos := pos + 1;
      published := published + [Percent(pos, count)];
    }

    /** The cursor loop of doInBackground over the rows of the query. */
    method ReconcileNotes(rows: seq<Row>, remoteFiles: map<string, Entry>)
      requires status
      modifies this`db, this`files, this`trace, this`errorMsg, this`localNotes, this`status, this`pos, this`published
      ensures State() == Loop(old(State()), rows, 0, |rows|, remoteFiles, oracle, cancelAt)
    {
      var count := |rows|;
      ghost var afterLoop := Loop(State(), rows, 0, count, remoteFiles, oracle, cancelAt);
      for i := 0 to count
        invariant status
        invariant Loop(State(), rows, i, count, remoteFiles, oracle, cancelAt) == afterLoop
      {
        LoopUnfolds(State(), rows, i, count, remoteFiles, oracle, cancelAt);
        NoteIteration(i, rows[i], count, remoteFiles);
        if !status {
          LoopStops(State(), rows, i + 1, count, remoteFiles, oracle, cancelAt);
          break;
        }
      }
      LoopStops(State(), rows, count, count, remoteFiles, oracle, cancelAt);
    }

    /** The download loop of doInBackground over the listing. */
    method DownloadExtraNotes(entries: seq<Entry>)
      requires status
      modifies this`db, this`nextId, this`trace, this`errorMsg, this`status
      ensures State() == PullDown(old(State()), entries, 0, oracle)
    {
      ghost var afterPullDown := PullDown(State(), entries, 0, oracle);
      for j := 0 to |entries|
        invariant status
        invariant PullDown(State(), entries, j, oracle) == afterPullDown
      {
        var file := entries[j];
        if file.isDeleted || file.name in localNotes {
          continue;
        }
        var fault := CreateLocalNote(file);
        if fault.Some? {
          errorMsg := Some(CoarseMessage(fault.value));
          status := false;
          return;
        }
      }
    }

    /** doInBackground: the listing (or its failure) and the cursor (or
        null) are its inputs; the result is its return value. */
    method DoInBackground(listing: Listing, cursor: Option<seq<Row>>) returns (result: bool)
      requires State() == Start(World())
      modifies this
      ensures State() == Sync(old(World()), listing, cursor, oracle, cancelAt)
      ensures result == status
      ensures cursor.Some? ==> pos <= |cursor.value|
      ensures PercentValues(published)
    {
      if listing.ListFailed? {
        errorMsg := Some(CoarseMessage(listing.failure));
        status := false;
        return false;
      }
      var entries := listing.entries;
      var remoteFiles := BuildIndex(entries);
      if cursor.None? {
        errorMsg := Some(NoCursorMessage);
        status := false;
        return false;
      }
      LoopProgress(State(), cursor.value, 0, |cursor.value|, remoteFiles, oracle, cancelAt);
      ReconcileNotes(cursor.value, remoteFiles);
      if !status {
        return false;
      }
      DownloadExtraNotes(entries);
      return status;
    }
  }
}



=== FILE: wrappers.dfy ===
/** The optional value used wherever the Java code may hold `null`. */
module Wrappers {

  datatype Option<+T> = None | Some(value: T)
}
